=== FILE: README.md ===
# QR_TREE core, modelled in Dafny

QR_TREE is an offline-first tree registry. Each tree record has:

- an id;
- a common name and a scientific name;
- a planting date;
- descriptive fields;
- an optional QR code.

Records live in two stores:

- a local table in the browser, which is IndexedDB through Dexie;
- a server collection behind a REST API, which is MongoDB through mongoose.

This project models the logic that keeps the two stores apart and together. It covers six pieces of the source:

- the record schema: required fields, defaults, unique id and timestamps;
- the server's collection route: create with age calculation, regex-escaped case-insensitive duplicate detection and max+1 id allocation, and listing by descending id;
- the sync coordinator: read-through cache, write-through add and update, and the reconnect sweep;
- the add-tree page: form state, local duplicate check, age parsing and benefit splitting;
- the age shown on a tree card;
- the QR code's target address and download file name.

Modules, one per source file (plus two shared ones):

- `Wrappers`: `Option` and `Result`.
- `Text`: the JavaScript string primitives the code uses. These are the `\s`/`trim` white-space set, `trim`, `split`, `toLowerCase`, `String(n)` and `parseInt`.
- `TreeSchema`: `models/Tree.ts`.
  - `Tree` is a stored record.
  - `Draft` is a request body or partial update, where every field may be absent.
  - `Validate` is the schema's check.
  - `ApplyDefaults` fills the defaults.
  - `Merge` applies an update.
- `TreesRoute`: `app/api/trees/route.ts`, plus the GET and PUT by id in `app/api/trees/[id]/route.ts` that the coordinator calls (GET at lines 7-35, PUT at lines 38-72, the `findOneAndUpdate` with update validators at lines 49-53). The table below cites, for these, the client requests in `utils/syncService.ts` that reach them, and the schema whose validators the update runs.
  - The answers are pure functions (`CreateResult`, `GetResult`, `PutResult`).
  - Class `TreeCollection` holds the documents as a sequence and has methods `Post`, `List`, `Get` and `Put`.
- `LocalStore`: the Dexie table as class `LocalTable`.
  - It has a key→record map and the auto-increment generator.
  - It provides `get`, `put`, `add`, `update` and `toArray`, where `toArray` returns records in ascending key order.
- `SyncService`: `utils/syncService.ts` as class `SyncCoordinator`.
  - It holds the local table, the server collection and the `online` flag.
  - A ghost log records every request it attempts.
- `AddTreePage`: `app/pages/addTree/page.tsx`.
- `TreeCard`: `components/TreeCard.tsx`.
- `TreeQRCode`: `components/TreeQRCode.tsx`.

Environment inputs become parameters:

- The network is a `delivered` flag per request. `SyncAllToRemote` takes one such flag per record id.
- `navigator.onLine` is the coordinator's `online` field.
- The server's clock is an integer millisecond timestamp.
- The server's date is a `(year, month 0-11, day)` triple, plus the parsed planting date.
- The card's clock and parsed planting instant are integer milliseconds.
- The page's origin is a string.

Behaviours of the code worth knowing, modelled as written:

- Adding a tree while offline does not fail. The tree is stored locally under a key from the local table's own counter. Online, it is also POSTed, and the server assigns its own max+1 id. The two ids are never reconciled (`SyncService.LocalAndServerIdsDiverge`).
- A local hit in `getTreeWithSync` triggers a background PUT of the local record, not a read-only verification GET. It can therefore change the server.
- An update that the server answers with 404 is not retried as a create. `updateTreeWithSync` simply returns false.
- An offline read miss returns null rather than a distinct "offline" error.
- PUT runs the update validators before it looks the id up: an update that blanks a required field is a 400 even for an unknown id, and only a valid update can answer 404.

## Model

| member | source | states |
|---|---|---|
| Text.Lower | app/pages/addTree/page.tsx:36-37 | `toLowerCase` keeps the length and maps every character through the ASCII letter mapping |
| Text.LowerFoldsLetters | app/pages/addTree/page.tsx:36-37 | lowering sends each of 'A'..'Z' to its letter in 'a'..'z', keeps every other character, and lowering twice is lowering once, so a name equals its lowered form ignoring case |
| Text.EqualsIgnoreCasePointwise | app/pages/addTree/page.tsx:36-37 | two names are equal ignoring case exactly when they have the same length and agree position by position after lowering |
| Text.TrimStart | app/api/trees/route.ts:47-48 | the result is a suffix of the input, everything dropped is white space, and it does not start with white space |
| Text.TrimEnd | app/api/trees/route.ts:47-48 | the result is a prefix, everything dropped is white space, and it does not end with white space |
| Text.Trim | app/api/trees/route.ts:47-48 | `trim()` has no white space at either end and is no longer than its input |
| Text.TrimInfix | app/api/trees/route.ts:47-48 | `trim()` is a contiguous slice of the input with only white space before and after it |
| Text.TrimIdempotent | app/pages/addTree/page.tsx:156 | trimming twice is trimming once |
| Text.Split | app/pages/addTree/page.tsx:156 | `split(",")` yields one more piece than there are commas, and no piece contains a comma |
| Text.JoinSplit | app/pages/addTree/page.tsx:156 | joining the pieces of `split` with the separator gives the input back |
| Text.Decimal | components/TreeQRCode.tsx:17 | `String(n)` is non-empty, starts with `-` exactly for a negative n, and is digits after the sign |
| Text.Digits | components/TreeQRCode.tsx:17 | `String(n)` for n ≥ 0 is a non-empty digit string without a leading zero (except "0") |
| Text.DigitPrefix | app/pages/addTree/page.tsx:50 | the digits `parseInt` reads are the longest all-digit prefix of the text |
| Text.ParseInt | app/pages/addTree/page.tsx:50 | `parseInt` of blank text is NaN, text whose first non-blank character is 1-9 has a value, and only a leading minus sign gives a negative value |
| Text.ParseIntNonNegative | app/treeAdded/page.tsx:11-12 | `parseInt(String(n))` is n for every n ≥ 0 |
| Text.ParseIntMinusDigits | app/treeAdded/page.tsx:11-12 | a minus sign followed by the digits of m reads back as -m |
| Text.ParseIntNegative | app/treeAdded/page.tsx:11-12 | `parseInt(String(n))` is n for every n < 0 |
| Text.ParseIntDecimal | app/treeAdded/page.tsx:11-12 | `parseInt(String(n))` is n for every integer n |
| TreeSchema.ApplyDefaults | models/Tree.ts:24-30 | after defaulting, every defaulted field is present, supplied fields are kept, and required fields and `qr_code` are untouched |
| TreeSchema.DefaultsFillAbsent | models/Tree.ts:24-31 | absent fields get '' / [] / [] / 0 / 'Healthy' / '' and `qr_code` stays absent |
| TreeSchema.DefaultsIdempotent | models/Tree.ts:24-30 | applying the defaults twice equals applying them once |
| TreeSchema.MissingRequired | models/Tree.ts:21-28 | the list of failing required paths is empty exactly when tree_id, both names and planted_date are present and non-empty |
| TreeSchema.Validate | models/Tree.ts:19-36 | a document is accepted exactly when the required paths hold. A rejection lists those paths. An accepted record is the defaulted body, well formed, and not yet stamped |
| TreeSchema.ToDraft | utils/syncService.ts:45 | a whole record written out supplies every field, and it passes the required checks exactly when the record is well formed |
| TreeSchema.ValidateToDraft | models/Tree.ts:19-32 | a well-formed unstamped record survives being written out and validated again |
| TreeSchema.QrCodeOptional | models/Tree.ts:31 | a record without `qr_code` is valid and stays without one |
| TreeSchema.Stamp | models/Tree.ts:33-35 | creation sets both createdAt and updatedAt to the clock and changes nothing else |
| TreeSchema.Merge | utils/syncService.ts:40-48 | an update keeps tree_id and both timestamps, every supplied field replaces the stored one, every field not supplied keeps its stored value, and an empty update changes nothing |
| TreeSchema.MergeIdempotent | utils/syncService.ts:40-48 | applying the same update twice equals applying it once |
| TreeSchema.Unsupplied | utils/syncService.ts:40-48 | the stored fields an update leaves out are a part of the record sharing no field with the update, and all of it for an empty update |
| TreeSchema.MergeKeepsUnsupplied | utils/syncService.ts:40-48 | the updated record keeps every stored field the update leaves out, and both timestamps |
| TreeSchema.MergeUnchangedIff | utils/syncService.ts:40-48 | an update leaves the record as it was exactly when every field it supplies already has that value |
| TreeSchema.MergeWellFormed | models/Tree.ts:19-36 | with update validators on, an updated well-formed record stays well formed exactly when the update sets no required string to "" |
| TreesRoute.ElapsedYears | app/api/trees/route.ts:33-37 | the year difference, or one less exactly when this year's anniversary has not been reached yet |
| TreesRoute.ElapsedYearsCountsAnniversaries | app/api/trees/route.ts:33-37 | the year count is exactly the number of planting anniversaries reached by today |
| TreesRoute.AnniversariesInOrder | app/api/trees/route.ts:33-37 | reaching anniversary n means every earlier one was reached |
| TreesRoute.CalculatedAge | app/api/trees/route.ts:29-39 | the age is 0 without a planting date; otherwise it is the number of anniversaries reached, clamped at 0 |
| TreesRoute.CalculatedAgeExamples | app/api/trees/route.ts:29-39 | the day before the second anniversary gives 1, the day after gives 2, and a future date gives 0 |
| TreesRoute.EscapeRegExp | app/api/trees/route.ts:43 | escaping never shortens the text |
| TreesRoute.EscapeRegExpIsLiteral | app/api/trees/route.ts:43 | the escaped text is a pattern matching exactly the original text, and removing the inserted backslashes recovers it |
| TreesRoute.EscapeRegExpConcat | app/api/trees/route.ts:43 | escaping works character by character, so it distributes over concatenation |
| TreesRoute.EscapeRegExpOrdinary | app/api/trees/route.ts:43 | text without special characters is unchanged |
| TreesRoute.UnescapedIsNotLiteral | app/api/trees/route.ts:43-48 | without escaping, "a.b" would not be a literal pattern; with it, the pattern is "a.b" literally |
| TreesRoute.WholeMatchEscaped | app/api/trees/route.ts:45-50 | the escaped input, anchored at both ends with the `i` flag, matches a name exactly when the name equals the input ignoring case |
| TreesRoute.QueryMatchesIsDuplicate | app/api/trees/route.ts:45-50 | the anchored, case-insensitive regex query on either name matches exactly when that name equals the trimmed input ignoring case |
| TreesRoute.FindDuplicate | app/api/trees/route.ts:45-52 | a found tree is stored and is a duplicate, and no duplicate is stored when none is found |
| TreesRoute.MaxId | app/api/trees/route.ts:61 | the highest id is some document's id and no document's id exceeds it |
| TreesRoute.NextTreeId | app/api/trees/route.ts:61-62 | the new id is 1 for an empty collection, else some stored id + 1, and exceeds every stored id |
| TreesRoute.NextTreeIdFresh | app/api/trees/route.ts:61-62 | the new id is not in use |
| TreesRoute.NextTreeIdSkipsGaps | app/api/trees/route.ts:61-62 | with ids {1, 3, 7} the next id is 8, so gaps are not reused |
| TreesRoute.InsertByIdDesc | app/api/trees/route.ts:10 | inserting into an id-descending list keeps it descending and adds exactly that tree |
| TreesRoute.SortByIdDesc | app/api/trees/route.ts:10 | the listing is ordered by id descending and is a permutation of the collection |
| TreesRoute.StatusesAgreeWithSuccess | app/api/trees/route.ts:11-81 | every answer has a 2xx status exactly when `success` is true |
| TreesRoute.CreateResult | app/api/trees/route.ts:21-83 | an unreachable database is a 400; a 409 means a stored tree has either trimmed name ignoring case; a created tree has the next id and both timestamps set to the clock |
| TreesRoute.CreateConflictIff | app/api/trees/route.ts:45-58 | POST answers 409 exactly when a stored tree has either trimmed name, ignoring case |
| TreesRoute.CreatedRecord | app/api/trees/route.ts:60-75 | a created tree is the body with the server's fresh tree_id and calculated age. Every other supplied field is kept, and both timestamps are set |
| TreesRoute.CreateBadRequest | app/api/trees/route.ts:76-81 | an unreachable database or a missing name gives 400 |
| TreesRoute.CreateSucceedsIff | app/api/trees/route.ts:45-75 | without a duplicate, POST creates exactly when both names and the planting date are non-empty |
| TreesRoute.AppendFreshId | models/Tree.ts:21 | appending a tree with an unused id keeps ids unique |
| TreesRoute.FindById | utils/syncService.ts:11-16 | lookup by id finds a stored tree with that id, and finds nothing exactly when the id is unused |
| TreesRoute.UpdateDocs | utils/syncService.ts:40-48 | an update keeps the number of documents and every id; every other document is unchanged; the matching one takes the supplied fields, keeps the rest (its `qr_code` among them when none is supplied) and its creation stamp, and is stamped as updated now |
| TreesRoute.UpdateDocsKeepsStored | models/Tree.ts:19-36 | a valid update keeps ids unique and unchanged and every document well formed and stamped |
| TreesRoute.GetResult | utils/syncService.ts:11-16 | GET by id finds a stored tree whose id the segment parses to, answers 404 exactly for a parsed id that is unused, and fails exactly when the database is unreachable or the segment is not a number |
| TreesRoute.PutResult | utils/syncService.ts:40-48 | an update that blanks a required field is a 400 before any lookup; 404 exactly for a valid update of an unused parsed id; 200 with the updated record exactly for a valid update of a stored parsed id; an applied update carries the supplied fields and the stored rest (the stored `qr_code` when none is supplied), the creation stamp and the update time |
| TreesRoute.TreeCollection.Post | app/api/trees/route.ts:21-83 | POST answers as `CreateResult`, appends exactly the created tree, and otherwise leaves the collection alone, keeping ids unique |
| TreesRoute.TreeCollection.List | app/api/trees/route.ts:7-18 | GET lists the collection sorted by id descending, or fails when the database is unreachable |
| TreesRoute.TreeCollection.Get | utils/syncService.ts:11-16 | GET by id answers as `GetResult` for the path segment |
| TreesRoute.TreeCollection.Put | utils/syncService.ts:40-48 | PUT answers as `PutResult` and changes only the matching document, keeping the collection valid |
| LocalStore.SortedKeysSpec | utils/syncService.ts:146 | the key sequence holds exactly the table's keys, strictly ascending |
| LocalStore.OrderedIsAscending | utils/syncService.ts:146 | `toArray` order is ascending tree_id and contains exactly the stored records |
| LocalStore.LocalTable.Get | utils/syncService.ts:60 | `get` finds a record exactly when the key is stored, and the record carries that key as its id |
| LocalStore.LocalTable.Put | utils/syncService.ts:84 | `put` upserts under the record's own id and moves the key generator past an explicit key |
| LocalStore.LocalTable.Add | utils/syncService.ts:98 | `add` stores the record under a fresh generated key, returns it and advances the generator |
| LocalStore.LocalTable.Update | utils/syncService.ts:124 | `update` merges the changes into an existing record (count 1), or changes nothing (count 0) |
| LocalStore.LocalTable.ToArray | utils/syncService.ts:146 | `toArray` returns every record once, in ascending key order |
| SyncService.SweepCalls | utils/syncService.ts:148-150 | a sweep makes one PUT per record, carrying that record, in order |
| SyncService.RemoteUpdatedKeepsStored | utils/syncService.ts:40-53 | a PUT, applied or not, keeps the server's ids unique and unchanged and its records valid |
| SyncService.SweepDocsKeepsStored | utils/syncService.ts:148-150 | a whole sweep, whatever requests fail, keeps the server's ids and validity |
| SyncService.SyncCoordinator.FetchTreeFromRemote | utils/syncService.ts:11-21 | fetch gives the server's record for the id, or null when the request fails or the id is unknown |
| SyncService.SyncCoordinator.SaveTreeToRemote | utils/syncService.ts:24-37 | save is true exactly when POST created the record, and the server changes only then |
| SyncService.SyncCoordinator.UpdateTreeInRemote | utils/syncService.ts:40-53 | update is true exactly when the request got through, the id exists and the changes are valid |
| SyncService.SyncCoordinator.GetTreeWithSync | utils/syncService.ts:56-91 | a local hit is returned unchanged (with a background PUT when online). A miss online fetches the record and caches it under its id, moving the key generator past that id. A miss offline is null with no request and no change |
| SyncService.SyncCoordinator.AddTreeWithSync | utils/syncService.ts:94-117 | exactly one local record is inserted under the returned fresh local key and the generator moves to the next key, online or not and whatever the server says. Online, the stored record is POSTed and the server changes as POST answers; offline, no request is made |
| SyncService.SyncCoordinator.UpdateTreeWithSync | utils/syncService.ts:120-136 | the local record is merged regardless of the remote outcome. Online, the server's answer is returned; offline, true is returned with no request |
| SyncService.SyncCoordinator.SyncAllToRemote | utils/syncService.ts:139-153 | offline it does nothing. Online it makes exactly one PUT per local record in table order, whatever the outcomes, and never changes the local table |
| SyncService.SyncCoordinator.ConnectivityChanged | utils/syncService.ts:156-167 | only the offline→online transition starts a sweep |
| SyncService.LocalAndServerIdsDiverge | utils/syncService.ts:98-105 | with two trees stored locally and none on the server, a tree added online gets local key 3 and server tree_id 1 |
| SyncService.ReadableAfterGoingOffline | utils/syncService.ts:59-86 | a record read online is read back unchanged offline, without any request |
| AddTreePage.InitialForm | app/pages/addTree/page.tsx:9-19 | the form opens empty except health status "Healthy" and today's planting date |
| AddTreePage.HandleChange | app/pages/addTree/page.tsx:26 | a change replaces exactly the named field and leaves the others unchanged |
| AddTreePage.SplitBenefits | app/pages/addTree/page.tsx:156 | there are commas + 1 benefits, each free of commas and of white space at its ends, and empty text gives [""] |
| AddTreePage.ChangeBenefits | app/pages/addTree/page.tsx:153-157 | the benefits handler changes only `benefits` |
| AddTreePage.SplitBenefitsSegments | app/pages/addTree/page.tsx:156 | each benefit is its comma segment with only white space removed, and the segments rejoin to the text |
| AddTreePage.ParseAge | app/pages/addTree/page.tsx:50 | the age is the value `parseInt` reads from the text, and 0 exactly when that is NaN or the value 0 |
| AddTreePage.ParseAgeDecimal | app/pages/addTree/page.tsx:50 | an age typed as an integer is stored as that integer |
| AddTreePage.ParseAgeEmpty | app/pages/addTree/page.tsx:50 | an empty age field is stored as 0 |
| AddTreePage.ParseAgeNonNumeric | app/pages/addTree/page.tsx:50 | non-numeric age text ("ten") is stored as 0 |
| AddTreePage.ParseAgeIgnoresSuffix | app/pages/addTree/page.tsx:50 | text after the leading digits is ignored ("12 years" gives 12) |
| AddTreePage.LocalDuplicates | app/pages/addTree/page.tsx:33-39 | the filter keeps exactly the local trees whose common or scientific name equals the form's, ignoring case, in table order: the first kept is the first duplicate in the table |
| AddTreePage.FormRecord | app/pages/addTree/page.tsx:48-51 | the added record has every form field (names, description, benefits, images, planting date, health status, planted by), the parsed age, and no QR code or timestamps |
| AddTreePage.TreeAddedUrl | app/pages/addTree/page.tsx:52 | the confirmation address is `/treeAdded?tree_id=` followed by a non-empty value without white space |
| AddTreePage.TreeAddedUrlCarriesId | app/pages/addTree/page.tsx:52 | the confirmation address carries the new id, and parseInt reads it back |
| AddTreePage.LocalDuplicatesIff | app/pages/addTree/page.tsx:33-41 | the submit is refused exactly when some stored record has either name equal ignoring case |
| AddTreePage.LocalCheckDoesNotTrim | app/pages/addTree/page.tsx:36-37 | the local check compares untrimmed names: "Neem " is not a duplicate of "Neem" |
| AddTreePage.HandleSubmit | app/pages/addTree/page.tsx:29-57 | with a duplicate, the first one in table order is reported and nothing is added. Otherwise exactly the form record is added under the next key and the page moves to its confirmation |
| TreeCard.CalculateAge | components/TreeCard.tsx:10-29 | the shown age is never below the stored age. It equals the stored age for an empty or invalid date and for a future date |
| TreeCard.CalculateAgeWholeYears | components/TreeCard.tsx:20-26 | from a past date, the added years are exactly the whole 365.25-day years in the elapsed time |
| TreeCard.CalculateAgeMonotone | components/TreeCard.tsx:20-26 | the shown age never decreases as time passes |
| TreeCard.CalculateAgeYearBoundary | components/TreeCard.tsx:23 | one millisecond short of a year adds nothing, and a full year adds one |
| TreeQRCode.CollapseWhitespace | components/TreeQRCode.tsx:34 | the replaced name contains no white space and is no longer than the name |
| TreeQRCode.StreamingInRun | components/TreeQRCode.tsx:34 | inside a run of white space, the rest of the run writes nothing |
| TreeQRCode.CollapseMatchesStreaming | components/TreeQRCode.tsx:34 | the replacement equals the character-by-character reading: each white-space run becomes one `_` and other characters are copied in order |
| TreeQRCode.CollapseKeepsPlainName | components/TreeQRCode.tsx:34 | a name without white space is unchanged |
| TreeQRCode.CollapseIdempotent | components/TreeQRCode.tsx:34 | replacing twice is replacing once |
| TreeQRCode.DecimalPlain | components/TreeQRCode.tsx:34 | the id's decimal text has no white space and no underscore |
| TreeQRCode.FileName | components/TreeQRCode.tsx:34 | the download name contains no white space |
| TreeQRCode.FileNameCarriesId | components/TreeQRCode.tsx:34 | the name is `QR_…_<id>.png`, and the text between the last underscore and `.png` parses back to the id |
| TreeQRCode.QrTarget | components/TreeQRCode.tsx:17 | the QR address is the origin, `/tree/`, and a non-empty last segment with no white space or slash |
| TreeQRCode.QrTargetResolves | components/TreeQRCode.tsx:17 | the last segment of the QR address is `String(id)`, and `parseInt` reads it back as the id |
| TreeQRCode.DownloadQR | components/TreeQRCode.tsx:26-38 | nothing is downloaded while the image address is empty; otherwise the link points at the image under a name without white space |

## Left out

- Text.Lower: folds ASCII letters only. JavaScript's `toLowerCase` and the case-insensitive `i` regex flag also fold non-ASCII letters.
- Text.ParseInt: integers are unbounded. `parseInt` of more than about 15 digits loses precision as a double, and radix arguments are not modelled.
- TreesRoute.CalculatedAge: the planting date arrives already parsed into (year, month, day). `new Date(...)` parsing, time zones, and the invalid-date path (a NaN age that mongoose then refuses with 400) are not modelled.
- TreesRoute.CreateResult: a body whose name fields are present but not strings is not modelled. Neither is a `tree_id`/`age` cast failure; fields have fixed types.
- TreesRoute.WholeMatchEscaped: the regular-expression engine is replaced by `PatternLiteral`, which reads `$` as JavaScript does (end of text only). MongoDB evaluates `$regex` with PCRE, where `$` also matches before a final newline, so a stored name ending in a newline would also match the query.
- TreeQRCode.QrTargetResolves: the tree page at `/tree/<id>` looks the parsed id up in the local table of whichever device scans the code (app/tree/[id]/page.tsx:22-31). The model stops at the parsed id, so it does not promise that the scanning device holds the tree.
- TreeCard.CalculateAge: timestamps and the stored age are integers. Floating-point rounding of the division is not modelled; it is exact below about 2^53 ms.
- Merge never changes `tree_id`. An update body carrying a different `tree_id` (a key change in either store) is not modelled.
- SyncService.AsBody: a record sent as a request body omits the timestamps and MongoDB's own `_id`/`__v` fields.
- SyncService.SyncCoordinator.GetTreeWithSync: the background PUT after a local hit is fire-and-forget in the source. Here it completes before the call returns; the returned record does not depend on it.
- A request whose effect happens on the server but whose response is lost is not modelled. The model couples the effect and the answer through the single `delivered` flag.
- Interleaving of concurrent operations and the race on max+1 id allocation between devices are not modelled; the operations run one at a time.
- `isOnline` returns false where `window` is undefined (server-side rendering). That case is folded into the `online` field.
- Console logging, `alert`, router navigation, React state hooks and DOM link creation are I/O; the model returns the values they would show.
- The `catch` path of `handleSubmit` is not modelled. It is reached only by a local record without names or an IndexedDB failure.
- QR image encoding (`QRCode.toDataURL`) is a foreign library: the model produces the address it encodes, not the image.
- DELETE in app/api/trees/[id]/route.ts is not part of this model: no modelled operation calls it.
- The confirmation page (app/treeAdded/page.tsx) and the tree page (app/tree/[id]/page.tsx) are not part of this model beyond `parseInt` of the id they read.
- The Dexie and mongoose internals (IndexedDB transactions, the unique index, secondary indexes) are reduced to the map, sequence and generator semantics stated above.

=== FILE: AddTreePage.dfy ===
/**
 * The logic of the add-tree page (app/pages/addTree/page.tsx): the form state and
 * its change handlers, and the submit handler that checks the local table for a
 * tree with the same name and otherwise adds the form as a new local record.
 */
module AddTreePage {
  import opened Wrappers
  import opened Text
  import opened TreeSchema
  import opened LocalStore

  /** The form state; `age` is kept as typed. */
  datatype Form = Form(
    commonName: string,
    scientificName: string,
    age: string,
    description: string,
    benefits: seq<string>,
    images: seq<string>,
    healthStatus: string,
    plantedDate: string,
    plantedBy: string)

  /** The inputs whose change handler copies the typed value into the form. */
  datatype FormField =
    CommonName | ScientificName | Age | Description | HealthStatus | PlantedDate | PlantedBy

  function FieldValue(f: Form, field: FormField): string {
    match field
    case CommonName => f.commonName
    case ScientificName => f.scientificName
    case Age => f.age
    case Description => f.description
    case HealthStatus => f.healthStatus
    case PlantedDate => f.plantedDate
    case PlantedBy => f.plantedBy
  }

  /** The form as the page opens; `today` is the current date as `YYYY-MM-DD`. */
  function InitialForm(today: string): (r: Form)
    ensures forall field :: FieldValue(r, field) == if field == HealthStatus then "Healthy"
                                                    else if field == PlantedDate then today else ""
    ensures r.benefits == [] && r.images == []
  {
    Form("", "", "", "", [], [], "Healthy", today, "")
  }

  /** handleChange: the named input's value replaces that field and nothing else. */
  function HandleChange(f: Form, field: FormField, value: string): (r: Form)
    ensures forall g :: FieldValue(r, g) == if g == field then value else FieldValue(f, g)
    ensures r.benefits == f.benefits && r.images == f.images
  {
    match field
    case CommonName => f.(commonName := value)
    case ScientificName => f.(scientificName := value)
    case Age => f.(age := value)
    case Description => f.(description := value)
    case HealthStatus => f.(healthStatus := value)
    case PlantedDate => f.(plantedDate := value)
    case PlantedBy => f.(plantedBy := value)
  }

  // ---------------------------------------------------------------- benefits

  /** The benefits textarea: the text cut at every comma, each piece trimmed. */
  function SplitBenefits(text: string): (r: seq<string>)
    ensures |r| == Count(text, ',') + 1
    ensures forall i :: 0 <= i < |r| ==> ',' !in r[i]
    ensures forall i :: 0 <= i < |r| ==> Trimmed(r[i])
    ensures text == "" ==> r == [""]
  {
    var pieces := Split(text, ',');
    seq(|pieces|, i requires 0 <= i < |pieces| => TrimmedPiece(pieces[i]))
  }

  /** A trimmed piece of comma-free text is comma-free. */
  function TrimmedPiece(p: string): (r: string)
    requires ',' !in p
    ensures ',' !in r
    ensures r == Trim(p)
  {
    var t := TrimStart(p);
    assert ',' !in t by {
      forall k | 0 <= k < |t| ensures t[k] != ',' { assert t[k] == p[|p| - |t| + k]; }
    }
    var r := TrimEnd(t);
    assert ',' !in r by {
      forall k | 0 <= k < |r| ensures r[k] != ',' { assert r[k] == t[k]; }
    }
    assert r == Trim(p);
    r
  }

  /** The change handler for the benefits textarea: only `benefits` changes. */
  function ChangeBenefits(f: Form, text: string): (r: Form)
    ensures forall g :: FieldValue(r, g) == FieldValue(f, g)
    ensures r.images == f.images && r.benefits == SplitBenefits(text)
  {
    f.(benefits := SplitBenefits(text))
  }

  /** Each benefit is its comma-separated segment of the text with only white space
      removed from both ends, and the segments joined with commas give back the text. */
  lemma SplitBenefitsSegments(text: string)
    ensures var segs := Split(text, ','); var r := SplitBenefits(text);
      Join(segs, ',') == text && |segs| == |r| &&
      forall k :: 0 <= k < |r| ==> InfixAmidSpace(r[k], segs[k])
  {
    var segs := Split(text, ',');
    var r := SplitBenefits(text);
    JoinSplit(text, ',');
    forall k | 0 <= k < |r| ensures InfixAmidSpace(r[k], segs[k]) {
      assert r[k] == Trim(segs[k]);
      TrimInfix(segs[k]);
    }
  }

  // ---------------------------------------------------------------- age

  /** `parseInt(age) || 0`: the leading integer of the typed text, or 0 when there is none. */
  function ParseAge(s: string): (r: int)
    ensures ParseInt(s).Some? ==> r == ParseInt(s).value
    ensures ParseInt(s).None? ==> r == 0
    ensures r != 0 ==> ParseInt(s) == Some(r)
  {
    match ParseInt(s)
    case Some(v) => v
    case None => 0
  }

  /** An age typed as a plain integer is read back exactly. */
  lemma ParseAgeDecimal(n: int)
    ensures ParseAge(Decimal(n)) == n
  {
    ParseIntDecimal(n);
  }

  /** Empty input gives 0. */
  lemma ParseAgeEmpty()
    ensures ParseAge("") == 0
  {
    assert TrimStart("") == "";
  }

  /** Non-numeric input gives 0. */
  lemma ParseAgeNonNumeric()
    ensures ParseAge("ten") == 0
  {
    var s := "ten";
    TrimStartNoLeadingSpace(s);
    assert !(s[0] == '-' || s[0] == '+' || s[0] == '0');
    assert DigitPrefix(s) == "";
  }

  /** Text after the leading digits is ignored. */
  lemma ParseAgeIgnoresSuffix()
    ensures ParseAge("12 years") == 12
  {
    var s := "12 years";
    assert ParseInt(s) == Some(12) by {
      TrimStartNoLeadingSpace(s);
      assert DigitPrefix(s[2..]) == "";
      assert DigitPrefix(s[1..]) == "2";
      assert DigitPrefix(s) == "12";
      assert DecValue("12") == 12 by { assert "12"[..1] == "1"; }
      assert ParseUnsigned(s) == Some(12);
    }
  }

  // ---------------------------------------------------------------- submit

  /** The local duplicate test: either name equal ignoring case, with no trimming. */
  predicate IsLocalDuplicate(t: Tree, f: Form) {
    EqualsIgnoreCase(t.commonName, f.commonName) || EqualsIgnoreCase(t.scientificName, f.scientificName)
  }

  /** No record of `trees` before position `i` is a local duplicate. */
  predicate NoneBefore(trees: seq<Tree>, f: Form, i: int)
    requires i <= |trees|
  {
    forall j :: 0 <= j < i ==> !IsLocalDuplicate(trees[j], f)
  }

  /** `filter(...)`: the local duplicates among `trees`, in their order. */
  function LocalDuplicates(trees: seq<Tree>, f: Form): (r: seq<Tree>)
    ensures forall t :: t in r ==> t in trees && IsLocalDuplicate(t, f)
    ensures forall t :: t in trees && IsLocalDuplicate(t, f) ==> t in r
    ensures |r| <= |trees|
    // the first one kept is the first duplicate in the order of `trees`
    ensures r != [] ==> exists i :: 0 <= i < |trees| && trees[i] == r[0] && NoneBefore(trees, f, i)
  {
    if trees == [] then []
    else
      var init := trees[..|trees| - 1];
      var last := trees[|trees| - 1];
      var rest := LocalDuplicates(init, f);
      var r := rest + (if IsLocalDuplicate(last, f) then [last] else []);
      assert r != [] ==> exists i :: 0 <= i < |trees| && trees[i] == r[0] && NoneBefore(trees, f, i) by {
        if rest != [] {
          var i :| 0 <= i < |init| && init[i] == rest[0] && NoneBefore(init, f, i);
          assert trees[i] == r[0];
          assert forall j :: 0 <= j < i ==> trees[j] == init[j];
          assert NoneBefore(trees, f, i);
        } else if r != [] {
          assert forall j :: 0 <= j < |init| ==> trees[j] == init[j] && init[j] in init;
          assert trees[|trees| - 1] == r[0];
          assert NoneBefore(trees, f, |trees| - 1);
        }
      }
      r
  }

  /** The record the page adds: the form, with the age parsed; the table supplies the id. */
  function FormRecord(f: Form): (r: Tree)
    ensures r.age == ParseAge(f.age) && r.qrCode.None? && r.createdAt.None? && r.updatedAt.None?
    ensures r.commonName == f.commonName && r.scientificName == f.scientificName
    ensures r.plantedDate == f.plantedDate && r.benefits == f.benefits
    ensures r.description == f.description && r.images == f.images
    ensures r.healthStatus == f.healthStatus && r.plantedBy == f.plantedBy
  {
    Tree(0, f.commonName, f.scientificName, f.description, f.benefits, f.images,
         ParseAge(f.age), f.plantedDate, f.healthStatus, f.plantedBy, None, None, None)
  }

  const TreeAddedPrefix: string := "/treeAdded?tree_id="

  /** The page the router moves to after a local add. */
  function TreeAddedUrl(treeId: int): (r: string)
    ensures |r| > |TreeAddedPrefix| && r[..|TreeAddedPrefix|] == TreeAddedPrefix
    ensures NoSpace(r[|TreeAddedPrefix|..])
  {
    TreeAddedPrefix + Decimal(treeId)
  }

  /** The tree_id query value of the target, read back with parseInt, is the id. */
  lemma TreeAddedUrlCarriesId(treeId: int)
    ensures var u := TreeAddedUrl(treeId);
      |u| >= |TreeAddedPrefix| && u[..|TreeAddedPrefix|] == TreeAddedPrefix &&
      ParseInt(u[|TreeAddedPrefix|..]) == Some(treeId)
  {
    var u := TreeAddedUrl(treeId);
    assert u[|TreeAddedPrefix|..] == Decimal(treeId);
    ParseIntDecimal(treeId);
  }

  /** What submitting shows: an alert naming the first local duplicate, or the
      navigation to the confirmation page for the new local id. */
  datatype Submitted = DuplicateAlert(first: Tree) | Navigate(treeId: int, target: string)

  /** The duplicate test over the whole table succeeds exactly when some stored record
      has either name equal ignoring case. */
  lemma LocalDuplicatesIff(records: map<int, Tree>, f: Form)
    requires forall k :: k in records ==> records[k].treeId == k
    ensures LocalDuplicates(Ordered(records), f) != [] <==>
      exists k :: k in records && IsLocalDuplicate(records[k], f)
  {
    OrderedIsAscending(records);
    var r := LocalDuplicates(Ordered(records), f);
    if r != [] {
      assert r[0] in r;
      assert r[0].treeId in records && records[r[0].treeId] == r[0];
    }
    if exists k :: k in records && IsLocalDuplicate(records[k], f) {
      var k :| k in records && IsLocalDuplicate(records[k], f);
      assert records[k] in Ordered(records);
      assert records[k] in r;
    }
  }

  /** Local names are compared as typed: "Neem " typed into the form is not a duplicate of
      a stored "Neem", though the server, which trims the input, would refuse it. */
  lemma LocalCheckDoesNotTrim(t: Tree, f: Form)
    requires t.commonName == "Neem" && t.scientificName == "Azadirachta indica"
    requires f.commonName == "Neem " && f.scientificName == "Melia"
    ensures !IsLocalDuplicate(t, f)
  {
    assert |Lower(t.commonName)| != |Lower(f.commonName)|;
    assert Lower(t.scientificName)[0] != Lower(f.scientificName)[0];
  }

  /** handleSubmit: when some local record has the same common or scientific name (ignoring
      case) nothing is added and the first such record, in table order, is shown; otherwise
      the form is added under the next local key and the page moves to its confirmation. */
  method HandleSubmit(db: LocalTable, f: Form) returns (outcome: Submitted)
    requires db.Valid()
    modifies db
    ensures db.Valid()
    ensures var found := LocalDuplicates(Ordered(old(db.records)), f);
      found != [] ==>
        outcome == DuplicateAlert(found[0]) && db.records == old(db.records) && db.nextKey == old(db.nextKey)
    ensures var found := LocalDuplicates(Ordered(old(db.records)), f);
      found == [] ==>
        outcome == Navigate(old(db.nextKey), TreeAddedUrl(old(db.nextKey))) &&
        old(db.nextKey) !in old(db.records) &&
        db.records == old(db.records)[old(db.nextKey) := FormRecord(f).(treeId := old(db.nextKey))] &&
        db.nextKey == old(db.nextKey) + 1
  {
    var all := db.ToArray();
    var existing: seq<Tree> := [];
    for i := 0 to |all|
      invariant existing == LocalDuplicates(all[..i], f)
    {
      assert all[..i + 1][..i] == all[..i];
      if IsLocalDuplicate(all[i], f) {
        existing := existing + [all[i]];
      }
    }
    assert all[..|all|] == all;
    if |existing| > 0 {
      return DuplicateAlert(existing[0]);
    }
    var treeId := db.Add(FormRecord(f));
    outcome := Navigate(treeId, TreeAddedUrl(treeId));
  }
}

=== FILE: LocalStore.dfy ===
/**
 * The per-device table of tree records (`db.trees`, keyed by `tree_id` with an
 * auto-incrementing key generator). Only the table operations the registry
 * uses are modelled: get, put, add, update and toArray.
 */
module LocalStore {
  import opened Wrappers
  import opened TreeSchema

  predicate IsMin(m: int, s: set<int>) {
    m in s && forall x :: x in s ==> m <= x
  }

  lemma MinExists(s: set<int>)
    requires s != {}
    ensures exists m :: IsMin(m, s)
    decreases |s|
  {
    if forall y :: y !in s {
      assert false;
    }
    var x :| x in s;
    if s == {x} {
      assert IsMin(x, s);
    } else {
      MinExists(s - {x});
      var m :| IsMin(m, s - {x});
      assert forall y :: y in s ==> y == x || y in s - {x};
      if x < m {
        assert IsMin(x, s);
      } else {
        assert IsMin(m, s);
      }
    }
  }

  /** The keys of `s` in ascending order. */
  ghost function SortedKeys(s: set<int>): seq<int>
    decreases |s|
  {
    if s == {} then []
    else
      MinExists(s);
      var m :| IsMin(m, s);
      [m] + SortedKeys(s - {m})
  }

  /** `SortedKeys(s)` holds every key of `s`, nothing else, in strictly ascending order. */
  lemma {:induction false} SortedKeysSpec(s: set<int>)
    ensures forall i :: 0 <= i < |SortedKeys(s)| ==> SortedKeys(s)[i] in s
    ensures forall x :: x in s ==> x in SortedKeys(s)
    ensures forall i, j :: 0 <= i < j < |SortedKeys(s)| ==> SortedKeys(s)[i] < SortedKeys(s)[j]
    decreases |s|
  {
    if s != {} {
      MinExists(s);
      var m :| IsMin(m, s);
      SortedKeysStep(s, m);
      SortedKeysSpec(s - {m});
      var rest := SortedKeys(s - {m});
      var r := SortedKeys(s);
      assert forall i :: 0 < i < |r| ==> r[i] == rest[i - 1];
      assert forall x :: x in s ==> x == m || x in s - {m};
    }
  }

  lemma SortedKeysStep(s: set<int>, m: int)
    requires IsMin(m, s)
    ensures SortedKeys(s) == [m] + SortedKeys(s - {m})
  {
  }

  /** The records under `keys`, in the order of `keys`. */
  ghost function KeysToRecords(records: map<int, Tree>, keys: seq<int>): (r: seq<Tree>)
    requires forall i :: 0 <= i < |keys| ==> keys[i] in records
    ensures |r| == |keys|
  {
    if keys == [] then [] else KeysToRecords(records, keys[..|keys| - 1]) + [records[keys[|keys| - 1]]]
  }

  /** The records of a table in ascending key order (what `toArray()` returns). */
  ghost function Ordered(records: map<int, Tree>): seq<Tree> {
    SortedKeysSpec(records.Keys);
    KeysToRecords(records, SortedKeys(records.Keys))
  }

  /** The table: records by key, and the key generator's current number. */
  class LocalTable {
    var records: map<int, Tree>
    var nextKey: int

    /** Every record sits under its own tree_id, and the generator is past every key. */
    ghost predicate Valid()
      reads this
    {
      nextKey >= 1 && forall k :: k in records ==> records[k].treeId == k && k < nextKey
    }

    constructor ()
      ensures Valid() && records == map[] && nextKey == 1
    {
      records := map[];
      nextKey := 1;
    }

    /** `get(key)`: the record stored under `key`, which carries `key` as its tree_id, or
        None when there is none. */
    function Get(key: int): (r: Option<Tree>)
      reads this
      ensures r.Some? <==> key in records
      ensures r.Some? ==> r.value == records[key] && (Valid() ==> r.value.treeId == key)
    {
      if key in records then Some(records[key]) else None
    }

    /** `put(tree)`: upsert under the record's own key. An explicit key at or above the
        generator's number moves the generator past it. */
    method Put(t: Tree)
      requires Valid()
      modifies this
      ensures Valid()
      ensures records == old(records)[t.treeId := t]
      ensures nextKey == if t.treeId >= old(nextKey) then t.treeId + 1 else old(nextKey)
    {
      records := records[t.treeId := t];
      if t.treeId >= nextKey {
        nextKey := t.treeId + 1;
      }
    }

    /** `add(tree)` without a key: the generator supplies a key no record has, and the
        stored record carries it as its tree_id. */
    method Add(t: Tree) returns (key: int)
      requires Valid()
      modifies this
      ensures Valid()
      ensures key == old(nextKey) && key !in old(records)
      ensures records == old(records)[key := t.(treeId := key)]
      ensures nextKey == key + 1
    {
      key := nextKey;
      records := records[key := t.(treeId := key)];
      nextKey := key + 1;
    }

    /** `update(key, changes)`: merges the changes into the record under `key`;
        answers 1, or 0 (and changes nothing) when there is no such record. */
    method Update(key: int, patch: Draft) returns (count: int)
      requires Valid()
      modifies this
      ensures Valid() && nextKey == old(nextKey)
      ensures key in old(records) ==> count == 1 && records == old(records)[key := Merge(old(records)[key], patch)]
      ensures key !in old(records) ==> count == 0 && records == old(records)
    {
      if key in records {
        records := records[key := Merge(records[key], patch)];
        count := 1;
      } else {
        count := 0;
      }
    }

    /** `toArray()`: every record once, in ascending key order. */
    method ToArray() returns (all: seq<Tree>)
      requires Valid()
      ensures all == Ordered(records)
    {
      var recs := records;
      var rest := recs.Keys;
      ghost var done: seq<int> := [];
      all := [];
      while rest != {}
        invariant rest <= recs.Keys
        invariant SortedKeys(recs.Keys) == done + SortedKeys(rest)
        invariant forall i :: 0 <= i < |done| ==> done[i] in recs
        invariant all == KeysToRecords(recs, done)
        decreases |rest|
      {
        MinExists(rest);
        var m :| IsMin(m, rest);
        SortedKeysStep(rest, m);
        assert (done + [m])[..|done|] == done;
        all := all + [recs[m]];
        done := done + [m];
        rest := rest - {m};
      }
      assert done == SortedKeys(recs.Keys);
      assert all == KeysToRecords(records, SortedKeys(records.Keys));
    }
  }

  lemma {:induction false} KeysToRecordsAt(records: map<int, Tree>, keys: seq<int>, i: int)
    requires forall k :: 0 <= k < |keys| ==> keys[k] in records
    requires 0 <= i < |keys|
    ensures KeysToRecords(records, keys)[i] == records[keys[i]]
  {
    if i < |keys| - 1 {
      KeysToRecordsAt(records, keys[..|keys| - 1], i);
    }
  }

  /** `toArray()` lists each record exactly once, by strictly ascending tree_id. */
  lemma OrderedIsAscending(records: map<int, Tree>)
    requires forall k :: k in records ==> records[k].treeId == k
    ensures forall i, j :: 0 <= i < j < |Ordered(records)| ==>
      Ordered(records)[i].treeId < Ordered(records)[j].treeId
    ensures forall k :: k in records ==> records[k] in Ordered(records)
    ensures forall t :: t in Ordered(records) ==> t.treeId in records && records[t.treeId] == t
  {
    var ks := SortedKeys(records.Keys);
    SortedKeysSpec(records.Keys);
    var r := Ordered(records);
    forall i | 0 <= i < |r| ensures r[i] == records[ks[i]] {
      KeysToRecordsAt(records, ks, i);
    }
    forall k | k in records ensures records[k] in r {
      var i :| 0 <= i < |ks| && ks[i] == k;
      assert r[i] == records[k];
    }
  }
}

=== FILE: SyncService.dfy ===
/**
 * The sync coordinator of utils/syncService.ts: reads go to the local table
 * first, writes go to the local table and then, when the device is online, to
 * the server; coming back online pushes every local record to the server.
 *
 * The server is the tree collection of TreesRoute, reached through three
 * request helpers that never fail loudly: a request that does not get through
 * (`delivered` false) or that the server refuses yields null/false. Every
 * request attempted is recorded in the ghost `log`.
 */
module SyncService {
  import opened Wrappers
  import opened Text
  import opened TreeSchema
  import opened TreesRoute
  import opened LocalStore

  /** One request attempted against the server. */
  datatype RemoteCall =
    | FetchCall(treeId: int)                 // GET /api/trees/{id}
    | SaveCall(tree: Tree)                   // POST /api/trees
    | UpdateCall(treeId: int, patch: Draft)  // PUT /api/trees/{id}

  /** The server's calendar date and clock (milliseconds) while it handles a request. */
  datatype Clock = Clock(today: Date, nowMs: int)

  /** Whether a PUT of `patch` for `treeId` that gets through is applied. */
  predicate RemoteUpdateSucceeds(docs: seq<Tree>, treeId: int, patch: Draft, delivered: bool) {
    delivered && treeId in Ids(docs) && PatchValid(patch)
  }

  /** The server's documents after a PUT of `patch` for `treeId`. */
  function RemoteUpdated(docs: seq<Tree>, treeId: int, patch: Draft, delivered: bool, now: int): seq<Tree> {
    if RemoteUpdateSucceeds(docs, treeId, patch, delivered) then UpdateDocs(docs, treeId, patch, now) else docs
  }

  /** The body the coordinator sends for a whole record. */
  function AsBody(t: Tree): Draft {
    ToDraft(t)
  }

  /** The requests a sweep over `trees` attempts: one PUT per record, in order. */
  function SweepCalls(trees: seq<Tree>): (r: seq<RemoteCall>)
    ensures |r| == |trees|
    ensures forall i :: 0 <= i < |trees| ==> r[i] == UpdateCall(trees[i].treeId, AsBody(trees[i]))
  {
    if trees == [] then []
    else SweepCalls(trees[..|trees| - 1]) + [UpdateCall(trees[|trees| - 1].treeId, AsBody(trees[|trees| - 1]))]
  }

  /** The server's documents after a sweep over `trees`; `delivered(id)` says whether the
      PUT for `id` gets through. */
  function SweepDocs(docs: seq<Tree>, trees: seq<Tree>, delivered: int -> bool, now: int): seq<Tree> {
    if trees == [] then docs
    else
      var last := trees[|trees| - 1];
      RemoteUpdated(SweepDocs(docs, trees[..|trees| - 1], delivered, now), last.treeId, AsBody(last),
                    delivered(last.treeId), now)
  }

  /** A PUT keeps the server's documents valid: ids unchanged, required fields filled, stamped. */
  lemma RemoteUpdatedKeepsStored(docs: seq<Tree>, treeId: int, patch: Draft, delivered: bool, now: int)
    requires UniqueIds(docs) && forall k :: 0 <= k < |docs| ==> Stored(docs[k])
    ensures var r := RemoteUpdated(docs, treeId, patch, delivered, now);
      UniqueIds(r) && (forall k :: 0 <= k < |r| ==> Stored(r[k])) && Ids(r) == Ids(docs)
  {
    if RemoteUpdateSucceeds(docs, treeId, patch, delivered) {
      UpdateDocsKeepsStored(docs, treeId, patch, now);
    }
  }

  /** A whole sweep keeps the server's documents valid and their ids unchanged. */
  lemma {:induction false} SweepDocsKeepsStored(docs: seq<Tree>, trees: seq<Tree>, delivered: int -> bool, now: int)
    requires UniqueIds(docs) && forall k :: 0 <= k < |docs| ==> Stored(docs[k])
    ensures var r := SweepDocs(docs, trees, delivered, now);
      UniqueIds(r) && (forall k :: 0 <= k < |r| ==> Stored(r[k])) && Ids(r) == Ids(docs)
  {
    if trees != [] {
      var last := trees[|trees| - 1];
      SweepDocsKeepsStored(docs, trees[..|trees| - 1], delivered, now);
      RemoteUpdatedKeepsStored(SweepDocs(docs, trees[..|trees| - 1], delivered, now), last.treeId,
                               AsBody(last), delivered(last.treeId), now);
    }
  }

  class SyncCoordinator {
    const db: LocalTable
    const server: TreeCollection
    /** `navigator.onLine`. */
    var online: bool
    /** Every request attempted so far, in order. */
    ghost var log: seq<RemoteCall>

    ghost predicate Valid()
      reads this, db, server
    {
      db.Valid() && server.Valid()
    }

    constructor (db: LocalTable, server: TreeCollection, online: bool)
      requires db.Valid() && server.Valid()
      ensures Valid() && this.db == db && this.server == server
      ensures this.online == online && log == []
    {
      this.db := db;
      this.server := server;
      this.online := online;
      log := [];
    }

    // ---------------------------------------------------------- request helpers

    /** fetchTreeFromMongoDB: the server's record, or None when the request fails,
        the id is unknown or the reply is not a success. */
    method FetchTreeFromRemote(treeId: int, delivered: bool) returns (r: Option<Tree>)
      requires Valid()
      modifies `log
      ensures Valid()
      ensures log == old(log) + [FetchCall(treeId)]
      ensures r == if delivered then FindById(server.docs, treeId) else None
    {
      log := log + [FetchCall(treeId)];
      var resp := server.Get(Decimal(treeId), delivered);
      ParseIntDecimal(treeId);
      r := if resp.Found? then Some(resp.tree) else None;
    }

    /** saveTreeToMongoDB: POSTs the record; true exactly when the server created it. */
    method SaveTreeToRemote(tree: Tree, delivered: bool, planted: Date, clock: Clock) returns (ok: bool)
      requires Valid()
      modifies `log, server
      ensures Valid()
      ensures log == old(log) + [SaveCall(tree)]
      ensures var resp := CreateResult(old(server.docs), AsBody(tree), delivered, planted, clock.today, clock.nowMs);
        ok == resp.Created? &&
        server.docs == if resp.Created? then old(server.docs) + [resp.tree] else old(server.docs)
    {
      log := log + [SaveCall(tree)];
      var resp := server.Post(AsBody(tree), delivered, planted, clock.today, clock.nowMs);
      ok := resp.Created?;
    }

    /** updateTreeInMongoDB: PUTs the changes; true exactly when the server applied them. */
    method UpdateTreeInRemote(treeId: int, patch: Draft, delivered: bool, now: int) returns (ok: bool)
      requires Valid()
      modifies `log, server
      ensures Valid()
      ensures log == old(log) + [UpdateCall(treeId, patch)]
      ensures ok == RemoteUpdateSucceeds(old(server.docs), treeId, patch, delivered)
      ensures server.docs == RemoteUpdated(old(server.docs), treeId, patch, delivered, now)
    {
      log := log + [UpdateCall(treeId, patch)];
      ParseIntDecimal(treeId);
      var resp := server.Put(Decimal(treeId), patch, delivered, now);
      ok := resp.Updated?;
    }

    // ---------------------------------------------------------- coordinator operations

    /** getTreeWithSync: the local record when there is one (pushing it to the server in
        the background when online); otherwise, when online, the server's record, which
        is then kept in the local table; otherwise None. */
    method GetTreeWithSync(treeId: int, delivered: bool, now: int) returns (r: Option<Tree>)
      requires Valid()
      modifies `log, db, server
      ensures Valid()
      // a local hit is returned as stored, whatever the connection and the background push do
      ensures old(db.Get(treeId)).Some? ==>
        r == old(db.Get(treeId)) && db.records == old(db.records) && db.nextKey == old(db.nextKey)
      ensures old(db.Get(treeId)).Some? && online ==>
        log == old(log) + [UpdateCall(treeId, AsBody(r.value))] &&
        server.docs == RemoteUpdated(old(server.docs), treeId, AsBody(r.value), delivered, now)
      // a local miss while online: the server's record, cached locally under its id
      ensures old(db.Get(treeId)).None? && online ==>
        log == old(log) + [FetchCall(treeId)] && server.docs == old(server.docs) &&
        r == (if delivered then FindById(old(server.docs), treeId) else None)
      ensures old(db.Get(treeId)).None? && online && r.Some? ==>
        r.value.treeId == treeId && db.records == old(db.records)[treeId := r.value] &&
        db.nextKey == if treeId >= old(db.nextKey) then treeId + 1 else old(db.nextKey)
      ensures old(db.Get(treeId)).None? && online && r.None? ==>
        db.records == old(db.records) && db.nextKey == old(db.nextKey)
      // offline: no request at all; a miss is None and changes nothing
      ensures !online ==> log == old(log) && server.docs == old(server.docs)
      ensures old(db.Get(treeId)).None? && !online ==>
        r.None? && db.records == old(db.records) && db.nextKey == old(db.nextKey)
    {
      var tree := db.Get(treeId);
      if tree.Some? {
        if online {
          var success := UpdateTreeInRemote(treeId, AsBody(tree.value), delivered, now);
        }
        return tree;
      }
      if online {
        var remoteTree := FetchTreeFromRemote(treeId, delivered);
        if remoteTree.Some? {
          db.Put(remoteTree.value);
          return remoteTree;
        }
      }
      return None;
    }

    /** addTreeWithSync: always stores the record locally under a fresh local key and
        returns that key; when online it also POSTs the stored record, whatever the result. */
    method AddTreeWithSync(treeData: Tree, delivered: bool, planted: Date, clock: Clock) returns (localId: int)
      requires Valid()
      modifies `log, db, server
      ensures Valid()
      ensures localId == old(db.nextKey) && localId !in old(db.records)
      ensures db.records == old(db.records)[localId := treeData.(treeId := localId)]
      ensures db.nextKey == localId + 1
      ensures !online ==> log == old(log) && server.docs == old(server.docs)
      ensures online ==> log == old(log) + [SaveCall(treeData.(treeId := localId))]
      ensures online ==>
        var resp := CreateResult(old(server.docs), AsBody(treeData.(treeId := localId)), delivered,
                                 planted, clock.today, clock.nowMs);
        server.docs == if resp.Created? then old(server.docs) + [resp.tree] else old(server.docs)
    {
      localId := db.Add(treeData);
      if online {
        var fullTree := db.Get(localId);
        if fullTree.Some? {
          var success := SaveTreeToRemote(fullTree.value, delivered, planted, clock);
        }
      }
    }

    /** updateTreeWithSync: applies the changes locally whatever happens remotely; when
        online returns the server's answer, when offline makes no request and returns true. */
    method UpdateTreeWithSync(treeId: int, patch: Draft, delivered: bool, now: int) returns (ok: bool)
      requires Valid()
      modifies `log, db, server
      ensures Valid() && db.nextKey == old(db.nextKey)
      ensures treeId in old(db.records) ==>
        db.records == old(db.records)[treeId := Merge(old(db.records)[treeId], patch)]
      ensures treeId !in old(db.records) ==> db.records == old(db.records)
      ensures online ==>
        ok == RemoteUpdateSucceeds(old(server.docs), treeId, patch, delivered) &&
        log == old(log) + [UpdateCall(treeId, patch)] &&
        server.docs == RemoteUpdated(old(server.docs), treeId, patch, delivered, now)
      ensures !online ==> ok && log == old(log) && server.docs == old(server.docs)
    {
      var count := db.Update(treeId, patch);
      if online {
        ok := UpdateTreeInRemote(treeId, patch, delivered, now);
      } else {
        ok := true;
      }
    }

    /** syncAllToMongoDB: when online, one PUT per local record in table order, each
        attempted whatever became of the previous ones; the local table is only read. */
    method SyncAllToRemote(delivered: int -> bool, now: int)
      requires Valid()
      modifies `log, server
      ensures Valid()
      ensures !online ==> log == old(log) && server.docs == old(server.docs)
      ensures online ==> log == old(log) + SweepCalls(Ordered(db.records))
      ensures online ==> server.docs == SweepDocs(old(server.docs), Ordered(db.records), delivered, now)
    {
      if !online {
        return;
      }
      var allTrees := db.ToArray();
      for i := 0 to |allTrees|
        invariant Valid()
        invariant log == old(log) + SweepCalls(allTrees[..i])
        invariant server.docs == SweepDocs(old(server.docs), allTrees[..i], delivered, now)
      {
        var tree := allTrees[i];
        assert allTrees[..i + 1][..i] == allTrees[..i];
        var success := UpdateTreeInRemote(tree.treeId, AsBody(tree), delivered(tree.treeId), now);
      }
      assert allTrees[..|allTrees|] == allTrees;
    }

    /** The connectivity listeners: going from offline to online starts a sweep; any other
        change only records the new state. */
    method ConnectivityChanged(nowOnline: bool, delivered: int -> bool, now: int)
      requires Valid()
      modifies this, server
      ensures Valid() && online == nowOnline
      ensures !old(online) && nowOnline ==>
        log == old(log) + SweepCalls(Ordered(db.records)) &&
        server.docs == SweepDocs(old(server.docs), Ordered(db.records), delivered, now)
      ensures old(online) || !nowOnline ==> log == old(log) && server.docs == old(server.docs)
    {
      var wasOnline := online;
      online := nowOnline;
      if !wasOnline && nowOnline {
        SyncAllToRemote(delivered, now);
      }
    }
  }

  /** The local key and the server's tree_id come from two independent counters: with two
      trees already in a fresh local table and none on the server, a tree added online is
      kept locally under key 3 and created on the server as tree 1. */
  method LocalAndServerIdsDiverge(tree: Tree, planted: Date, clock: Clock) returns (localId: int, serverId: int)
    requires tree.commonName != "" && tree.scientificName != "" && tree.plantedDate != ""
    ensures localId == 3 && serverId == 1
  {
    var db := new LocalTable();
    var server := new TreeCollection();
    var first := db.Add(tree);
    var second := db.Add(tree);
    assert db.nextKey == 3;
    var sync := new SyncCoordinator(db, server, true);
    var body := AsBody(tree.(treeId := 3));
    CreateSucceedsIff([], body, planted, clock.today, clock.nowMs);
    var resp := CreateResult([], body, true, planted, clock.today, clock.nowMs);
    CreatedRecord([], body, true, planted, clock.today, clock.nowMs);
    assert resp.Created? && resp.tree.treeId == 1;
    localId := sync.AddTreeWithSync(tree, true, planted, clock);
    assert server.docs == [resp.tree];
    serverId := server.docs[0].treeId;
  }

  /** A record read online, whether from the local table or fetched from the server, is
      read back unchanged after the device goes offline, without any request. */
  method ReadableAfterGoingOffline(sync: SyncCoordinator, treeId: int, delivered: bool, now: int)
    returns (online: Option<Tree>, offline: Option<Tree>)
    requires sync.Valid() && sync.online
    modifies sync, sync.db, sync.server
    ensures online.Some? ==> offline == online
    ensures old(sync.db.Get(treeId)).Some? ==>
      online.Some? && sync.log == old(sync.log) + [UpdateCall(treeId, AsBody(online.value))]
    ensures old(sync.db.Get(treeId)).None? ==> sync.log == old(sync.log) + [FetchCall(treeId)]
  {
    online := sync.GetTreeWithSync(treeId, delivered, now);
    sync.ConnectivityChanged(false, _ => delivered, now);
    offline := sync.GetTreeWithSync(treeId, delivered, now);
  }
}

=== FILE: Text.dfy ===
/**
 * The JavaScript string primitives the registry relies on, on strings as
 * sequences of Unicode scalar values (a character outside the Basic Multilingual
 * Plane is one `char` here and two UTF-16 code units in JavaScript, so lengths can
 * differ from JavaScript's for such text): the `\s` / `String.prototype.trim`
 * whitespace set, `trim`, `split(",")`, `toLowerCase` (ASCII letters only),
 * `String(n)` for integers and `parseInt(s)`.
 */
module Text {
  import opened Wrappers

  /** The characters JavaScript counts as white space (WhiteSpace and LineTerminator). */
  predicate IsSpace(c: char) {
    c == '\t' || c == '\n' || c == '\U{B}' || c == '\U{C}' || c == '\r' || c == ' ' ||
    c == '\U{A0}' || c == '\U{1680}' || ('\U{2000}' <= c <= '\U{200A}') ||
    c == '\U{2028}' || c == '\U{2029}' || c == '\U{202F}' || c == '\U{205F}' ||
    c == '\U{3000}' || c == '\U{FEFF}'
  }

  predicate NoSpace(s: string) {
    forall k :: 0 <= k < |s| ==> !IsSpace(s[k])
  }

  predicate AllSpace(s: string) {
    forall k :: 0 <= k < |s| ==> IsSpace(s[k])
  }

  // ---------------------------------------------------------------- case

  function LowerChar(c: char): char {
    if 'A' <= c <= 'Z' then (c as int + 32) as char else c
  }

  function Lower(s: string): (r: string)
    ensures |r| == |s|
    ensures forall k :: 0 <= k < |s| ==> r[k] == LowerChar(s[k])
  {
    if s == [] then [] else [LowerChar(s[0])] + Lower(s[1..])
  }

  /** `a.toLowerCase() === b.toLowerCase()`. */
  predicate EqualsIgnoreCase(a: string, b: string) {
    Lower(a) == Lower(b)
  }

  /** Lowering sends 'A'..'Z' to 'a'..'z', keeps every other character, and is idempotent. */
  lemma LowerFoldsLetters(s: string)
    ensures forall k :: 0 <= k < |s| && 'A' <= s[k] <= 'Z' ==>
      'a' <= Lower(s)[k] <= 'z' && Lower(s)[k] as int - s[k] as int == 'a' as int - 'A' as int
    ensures forall k :: 0 <= k < |s| && !('A' <= s[k] <= 'Z') ==> Lower(s)[k] == s[k]
    ensures Lower(Lower(s)) == Lower(s)
    ensures EqualsIgnoreCase(s, Lower(s))
  {
  }

  /** Two strings are equal ignoring case exactly when they agree position by position after lowering. */
  lemma EqualsIgnoreCasePointwise(a: string, b: string)
    ensures EqualsIgnoreCase(a, b) <==>
      |a| == |b| && forall k :: 0 <= k < |a| ==> LowerChar(a[k]) == LowerChar(b[k])
  {
    if |a| == |b| && forall k :: 0 <= k < |a| ==> LowerChar(a[k]) == LowerChar(b[k]) {
      assert forall k :: 0 <= k < |a| ==> Lower(a)[k] == Lower(b)[k];
    }
  }

  // ---------------------------------------------------------------- trim

  /** Drops the leading white space. */
  function TrimStart(s: string): (r: string)
    ensures |r| <= |s| && r == s[|s| - |r|..]
    ensures AllSpace(s[..|s| - |r|])
    ensures r == [] || !IsSpace(r[0])
  {
    if s != [] && IsSpace(s[0]) then
      var r := TrimStart(s[1..]);
      assert forall k :: 0 <= k < |s| - |r| ==> IsSpace(s[k]) by {
        forall k | 0 < k < |s| - |r| ensures IsSpace(s[k]) {
          assert s[k] == s[1..][..|s| - 1 - |r|][k - 1];
        }
      }
      r
    else s
  }

  /** Drops the trailing white space. */
  function TrimEnd(s: string): (r: string)
    ensures |r| <= |s| && r == s[..|r|]
    ensures AllSpace(s[|r|..])
    ensures r == [] || !IsSpace(r[|r| - 1])
  {
    if s != [] && IsSpace(s[|s| - 1]) then
      var r := TrimEnd(s[..|s| - 1]);
      assert forall k :: |r| <= k < |s| ==> IsSpace(s[k]) by {
        forall k | |r| <= k < |s| - 1 ensures IsSpace(s[k]) {
          assert s[k] == s[..|s| - 1][|r|..][k - |r|];
        }
      }
      r
    else s
  }

  /** Neither end of `s` is white space. */
  predicate Trimmed(s: string) {
    s == [] || (!IsSpace(s[0]) && !IsSpace(s[|s| - 1]))
  }

  /** `s.trim()`: white space removed from both ends. */
  function Trim(s: string): (r: string)
    ensures |r| <= |s|
    ensures Trimmed(r)
  {
    TrimEnd(TrimStart(s))
  }

  /** `r` is an infix of `s` with only white space around it. */
  predicate InfixAmidSpace(r: string, s: string) {
    exists i, j :: 0 <= i <= j <= |s| && r == s[i..j] && AllSpace(s[..i]) && AllSpace(s[j..])
  }

  /** What `trim` keeps is an infix of the input with only white space around it. */
  lemma TrimInfix(s: string)
    ensures InfixAmidSpace(Trim(s), s)
  {
    var t := TrimStart(s);
    var r := TrimEnd(t);
    var i := |s| - |t|;
    var j := i + |r|;
    assert t == s[i..];
    assert AllSpace(s[..i]);
    assert s[i..j] == r by {
      assert s[i..j] == t[..j - i];
    }
    assert AllSpace(s[j..]) by {
      assert s[j..] == t[|r|..];
    }
    assert 0 <= i <= j <= |s| && Trim(s) == s[i..j];
  }

  /** Trimming a string that has no white space at its ends gives it back unchanged. */
  lemma {:induction false} TrimIdempotent(s: string)
    ensures Trim(Trim(s)) == Trim(s)
  {
    var r := Trim(s);
    assert TrimStart(r) == r;
    assert TrimEnd(r) == r;
  }

  // ---------------------------------------------------------------- split

  function Count(s: string, c: char): (n: nat)
    ensures n <= |s|
  {
    if s == [] then 0 else (if s[0] == c then 1 else 0) + Count(s[1..], c)
  }

  /** `s.split(sep)` for a one-character separator: the pieces between separators, in order. */
  function Split(s: string, sep: char): (r: seq<string>)
    ensures |r| == Count(s, sep) + 1
    ensures forall k :: 0 <= k < |r| ==> sep !in r[k]
  {
    if s == [] then [[]]
    else
      var rest := Split(s[1..], sep);
      if s[0] == sep then [[]] + rest else [[s[0]] + rest[0]] + rest[1..]
  }

  /** `pieces.join(sep)`. */
  function Join(pieces: seq<string>, sep: char): string {
    if pieces == [] then []
    else if |pieces| == 1 then pieces[0]
    else pieces[0] + [sep] + Join(pieces[1..], sep)
  }

  /** Splitting loses nothing: joining the pieces with the separator gives the input back. */
  lemma {:induction false} JoinSplit(s: string, sep: char)
    ensures Join(Split(s, sep), sep) == s
  {
    if s != [] {
      JoinSplit(s[1..], sep);
      var rest := Split(s[1..], sep);
      if s[0] == sep {
        assert Split(s, sep) == [[]] + rest;
      } else {
        var r := Split(s, sep);
        assert r[0] == [s[0]] + rest[0] && r[1..] == rest[1..];
        if |rest| == 1 {
          assert Join(r, sep) == [s[0]] + rest[0];
        } else {
          assert Join(r, sep) == [s[0]] + rest[0] + [sep] + Join(rest[1..], sep);
        }
      }
    }
  }

  // ---------------------------------------------------------------- numbers

  /** The character of decimal digit `d`. */
  function DigitChar(d: nat): (c: char)
    requires d < 10
    ensures '0' <= c <= '9' && c as int - '0' as int == d
  {
    "0123456789"[d]
  }

  predicate IsDigit(c: char) {
    '0' <= c <= '9'
  }

  function DigitValue(c: char): nat
    requires IsDigit(c)
  {
    c as int - '0' as int
  }

  /** The decimal digits of `n`, most significant first, without leading zeros. */
  function Digits(n: nat): (r: string)
    ensures |r| >= 1
    ensures forall k :: 0 <= k < |r| ==> IsDigit(r[k])
    ensures r[0] == '0' ==> n == 0 && r == "0"
  {
    if n < 10 then [DigitChar(n)] else Digits(n / 10) + [DigitChar(n % 10)]
  }

  /** `String(n)` for an integer `n`. */
  function Decimal(n: int): (r: string)
    ensures |r| >= 1 && (r[0] == '-' <==> n < 0)
    ensures forall k :: (if n < 0 then 1 else 0) <= k < |r| ==> IsDigit(r[k])
  {
    if n < 0 then "-" + Digits(-n) else Digits(n)
  }

  /** The value of a run of decimal digits. */
  function DecValue(s: string): nat
    requires forall k :: 0 <= k < |s| ==> IsDigit(s[k])
  {
    if s == [] then 0 else DecValue(s[..|s| - 1]) * 10 + DigitValue(s[|s| - 1])
  }

  predicate IsHexDigit(c: char) {
    IsDigit(c) || 'a' <= c <= 'f' || 'A' <= c <= 'F'
  }

  function HexValue(c: char): nat
    requires IsHexDigit(c)
  {
    if IsDigit(c) then DigitValue(c)
    else if 'a' <= c <= 'f' then c as int - 'a' as int + 10
    else c as int - 'A' as int + 10
  }

  function HexRunValue(s: string): nat
    requires forall k :: 0 <= k < |s| ==> IsHexDigit(s[k])
  {
    if s == [] then 0 else HexRunValue(s[..|s| - 1]) * 16 + HexValue(s[|s| - 1])
  }

  /** The longest prefix of `s` made of decimal digits. */
  function DigitPrefix(s: string): (r: string)
    ensures |r| <= |s| && r == s[..|r|]
    ensures forall k :: 0 <= k < |r| ==> IsDigit(r[k])
    ensures |r| < |s| ==> !IsDigit(s[|r|])
  {
    if s != [] && IsDigit(s[0]) then [s[0]] + DigitPrefix(s[1..]) else []
  }

  function HexPrefix(s: string): (r: string)
    ensures |r| <= |s| && r == s[..|r|]
    ensures forall k :: 0 <= k < |r| ==> IsHexDigit(r[k])
  {
    if s != [] && IsHexDigit(s[0]) then [s[0]] + HexPrefix(s[1..]) else []
  }

  /** The unsigned part of `parseInt`: a `0x`/`0X` prefix selects radix 16, otherwise radix 10;
      `None` (NaN) when no digit follows. */
  function ParseUnsigned(s: string): Option<nat> {
    if |s| >= 2 && s[0] == '0' && (s[1] == 'x' || s[1] == 'X') then
      var h := HexPrefix(s[2..]);
      if h == [] then None else Some(HexRunValue(h))
    else
      var d := DigitPrefix(s);
      if d == [] then None else Some(DecValue(d))
  }

  /** `parseInt(s)` (no radix argument): leading white space skipped, an optional sign, then the
      digits up to the first character that is not one; `None` stands for NaN. */
  function ParseInt(s: string): (r: Option<int>)
    // blank text is NaN
    ensures TrimStart(s) == [] ==> r.None?
    // text whose first non-blank character is a digit other than 0 always has a value
    // (a leading "0x" with no hex digit after it is NaN)
    ensures TrimStart(s) != [] && '1' <= TrimStart(s)[0] <= '9' ==> r.Some?
    // only a leading minus sign gives a negative value
    ensures r.Some? && r.value < 0 ==> TrimStart(s) != [] && TrimStart(s)[0] == '-'
  {
    var t := TrimStart(s);
    if t != [] && t[0] == '-' then
      var u: Option<int> := ParseUnsigned(t[1..]);
      match u
      case Some(v) => Some(-v)
      case None => None
    else if t != [] && t[0] == '+' then ParseUnsigned(t[1..])
    else ParseUnsigned(t)
  }

  lemma {:induction false} DecValueDigits(n: nat)
    ensures DecValue(Digits(n)) == n
  {
    if n >= 10 {
      DecValueDigits(n / 10);
      var d := Digits(n);
      assert d[..|d| - 1] == Digits(n / 10);
      assert d[|d| - 1] == DigitChar(n % 10);
    }
  }

  lemma {:induction false} DigitPrefixAllDigits(s: string)
    requires forall k :: 0 <= k < |s| ==> IsDigit(s[k])
    ensures DigitPrefix(s) == s
  {
    if s != [] {
      DigitPrefixAllDigits(s[1..]);
    }
  }

  lemma ParseUnsignedDigits(m: nat)
    ensures ParseUnsigned(Digits(m)) == Some(m)
  {
    var d := Digits(m);
    DigitPrefixAllDigits(d);
    DecValueDigits(m);
  }

  lemma TrimStartNoLeadingSpace(s: string)
    requires s != [] && !IsSpace(s[0])
    ensures TrimStart(s) == s
  {
  }

  /** The decimal form of a natural number reads back as that number. */
  lemma ParseIntNonNegative(m: nat)
    ensures ParseInt(Decimal(m)) == Some(m)
  {
    var d := Digits(m);
    assert Decimal(m) == d;
    TrimStartNoLeadingSpace(d);
    assert d[0] != '-' && d[0] != '+';
    ParseUnsignedDigits(m);
  }

  /** A minus sign followed by the digits of `m` reads back as `-m`. */
  lemma ParseIntMinusDigits(m: nat)
    ensures ParseInt("-" + Digits(m)) == Some(-(m as int))
  {
    var s := "-" + Digits(m);
    TrimStartNoLeadingSpace(s);
    assert s[1..] == Digits(m);
    ParseUnsignedDigits(m);
  }

  /** The decimal form of a negative number, a minus sign and its digits, reads back as it. */
  lemma ParseIntNegative(n: int)
    requires n < 0
    ensures ParseInt(Decimal(n)) == Some(n)
  {
    var m: nat := -n;
    ParseIntMinusDigits(m);
    assert Decimal(n) == "-" + Digits(m);
  }

  /** `parseInt(String(n)) === n`: the decimal form of an integer reads back as that integer. */
  lemma ParseIntDecimal(n: int)
    ensures ParseInt(Decimal(n)) == Some(n)
  {
    if n < 0 {
      ParseIntNegative(n);
    } else {
      ParseIntNonNegative(n);
    }
  }
}

=== FILE: TreeCard.dfy ===
/**
 * The age shown on a tree card (components/TreeCard.tsx): the stored age plus the
 * whole years elapsed since the planting date, a year being 365.25 days.
 * Timestamps are integer milliseconds, so the year count is an integer floor division.
 */
module TreeCard {
  import opened Wrappers

  /** 1000 * 60 * 60 * 24 * 365.25: the card's year in milliseconds, a whole number. */
  const MsPerYear: int := 31557600000

  function Max(a: int, b: int): int {
    if a < b then b else a
  }

  /** calculateAge. `plantedDate` is the stored text, `plantedMs` the instant it parses to
      (None for an invalid date) and `nowMs` the clock. An empty planting date or an invalid
      one shows the stored age; a planting date in the future adds nothing. */
  function CalculateAge(age: int, plantedDate: string, plantedMs: Option<int>, nowMs: int): (r: int)
    ensures r >= age
    ensures plantedDate == "" || plantedMs.None? ==> r == age
    ensures plantedMs.Some? && nowMs < plantedMs.value ==> r == age
  {
    if plantedDate == "" then age
    else
      match plantedMs
      case None => age
      case Some(planted) =>
        var diffTime := nowMs - planted;
        // Dafny's division by a positive divisor rounds down, as Math.floor does
        var yearsAdded := diffTime / MsPerYear;
        age + Max(0, yearsAdded)
  }

  /** From a valid past planting date, the card adds exactly the number of whole years of
      MsPerYear that fit in the elapsed time. */
  lemma CalculateAgeWholeYears(age: int, plantedDate: string, planted: int, nowMs: int)
    requires plantedDate != "" && planted <= nowMs
    ensures var n := CalculateAge(age, plantedDate, Some(planted), nowMs) - age;
      n >= 0 && n * MsPerYear <= nowMs - planted < (n + 1) * MsPerYear
  {
    var d := nowMs - planted;
    assert d == MsPerYear * (d / MsPerYear) + d % MsPerYear;
  }

  /** For a fixed record the shown age never goes down as time passes. */
  lemma CalculateAgeMonotone(age: int, plantedDate: string, plantedMs: Option<int>, now1: int, now2: int)
    requires now1 <= now2
    ensures CalculateAge(age, plantedDate, plantedMs, now1) <= CalculateAge(age, plantedDate, plantedMs, now2)
  {
    if plantedDate != "" && plantedMs.Some? {
      var d1 := now1 - plantedMs.value;
      var d2 := now2 - plantedMs.value;
      var q1 := d1 / MsPerYear;
      var q2 := d2 / MsPerYear;
      assert d1 == MsPerYear * q1 + d1 % MsPerYear;
      assert d2 == MsPerYear * q2 + d2 % MsPerYear;
    }
  }

  /** One millisecond short of a year adds nothing; a full year adds one. */
  lemma CalculateAgeYearBoundary(age: int, planted: int)
    ensures CalculateAge(age, "2020-01-01", Some(planted), planted + MsPerYear - 1) == age
    ensures CalculateAge(age, "2020-01-01", Some(planted), planted + MsPerYear) == age + 1
  {
  }
}

=== FILE: TreeQRCode.dfy ===
/**
 * The string-building part of the QR component (components/TreeQRCode.tsx): the
 * address the QR code encodes and the name of the downloaded image.
 */
module TreeQRCode {
  import opened Wrappers
  import opened Text
  import opened TreesRoute

  /** `name.replace(/\s+/g, "_")`: every maximal run of white space becomes one underscore. */
  function CollapseWhitespace(s: string): (r: string)
    ensures NoSpace(r)
    ensures |r| <= |s|
    decreases |s|
  {
    if s == [] then []
    else if IsSpace(s[0]) then
      var rest := TrimStart(s);
      "_" + CollapseWhitespace(rest)
    else [s[0]] + CollapseWhitespace(s[1..])
  }

  /** An independent, one-character-at-a-time reading of the same replacement: a white-space
      character writes an underscore unless the previous character was white space too;
      any other character is copied. */
  function CollapseStreaming(s: string, inRun: bool): string {
    if s == [] then []
    else if IsSpace(s[0]) then (if inRun then "" else "_") + CollapseStreaming(s[1..], true)
    else [s[0]] + CollapseStreaming(s[1..], false)
  }

  /** Inside a run, the rest of the run writes nothing. */
  lemma {:induction false} StreamingInRun(s: string)
    ensures CollapseStreaming(s, true) == CollapseStreaming(TrimStart(s), false)
  {
    if s != [] && IsSpace(s[0]) {
      StreamingInRun(s[1..]);
    }
  }

  /** The two readings agree on every name. */
  lemma {:induction false} CollapseMatchesStreaming(s: string)
    ensures CollapseWhitespace(s) == CollapseStreaming(s, false)
    decreases |s|
  {
    if s != [] {
      if IsSpace(s[0]) {
        var rest := TrimStart(s);
        CollapseMatchesStreaming(rest);
        StreamingInRun(s[1..]);
        assert TrimStart(s[1..]) == rest;
      } else {
        CollapseMatchesStreaming(s[1..]);
      }
    }
  }

  /** A name without white space is kept as it is. */
  lemma {:induction false} CollapseKeepsPlainName(s: string)
    requires NoSpace(s)
    ensures CollapseWhitespace(s) == s
  {
    if s != [] {
      CollapseKeepsPlainName(s[1..]);
    }
  }

  /** Replacing twice is replacing once. */
  lemma CollapseIdempotent(s: string)
    ensures CollapseWhitespace(CollapseWhitespace(s)) == CollapseWhitespace(s)
  {
    CollapseKeepsPlainName(CollapseWhitespace(s));
  }

  /** `String(treeId)` has no white space and no underscore. */
  lemma DecimalPlain(n: int)
    ensures NoSpace(Decimal(n)) && '_' !in Decimal(n)
  {
    var d := Digits(if n < 0 then -n else n);
    assert forall k :: 0 <= k < |d| ==> IsDigit(d[k]);
  }

  /** The download name `QR_<name>_<treeId>.png`. */
  function FileName(treeName: string, treeId: int): (r: string)
    ensures NoSpace(r)
  {
    DecimalPlain(treeId);
    var r := "QR_" + CollapseWhitespace(treeName) + "_" + Decimal(treeId) + ".png";
    assert forall k :: 0 <= k < |r| ==> !IsSpace(r[k]) by {
      var a := "QR_" + CollapseWhitespace(treeName) + "_";
      assert r == a + Decimal(treeId) + ".png";
      assert NoSpace(a);
    }
    r
  }

  /** The tree's id is the text between the last underscore and the extension. */
  lemma FileNameCarriesId(treeName: string, treeId: int)
    ensures var r := FileName(treeName, treeId); var n := |Decimal(treeId)|;
      |r| >= n + 8 && r[..3] == "QR_" && r[|r| - 4..] == ".png" && r[|r| - 5 - n] == '_' &&
      '_' !in r[|r| - 4 - n..|r| - 4] && ParseInt(r[|r| - 4 - n..|r| - 4]) == Some(treeId)
  {
    var r := FileName(treeName, treeId);
    var n := |Decimal(treeId)|;
    var a := "QR_" + CollapseWhitespace(treeName) + "_";
    assert r == a + Decimal(treeId) + ".png";
    assert r[|r| - 4 - n..|r| - 4] == Decimal(treeId);
    DecimalPlain(treeId);
    ParseIntDecimal(treeId);
  }

  /** The address the QR code encodes: the tree's page under the site's origin. */
  function QrTarget(origin: string, treeId: int): (r: string)
    ensures |r| > |origin| + 6 && r[..|origin| + 6] == origin + "/tree/"
    ensures NoSpace(r[|origin| + 6..]) && '/' !in r[|origin| + 6..]
  {
    DecimalPlain(treeId);
    origin + "/tree/" + Decimal(treeId)
  }

  /** Scanning the code leads back to the id: the last path segment of the address, read
      with `parseInt` as the tree page reads its `id` parameter, is the tree's id. */
  lemma QrTargetResolves(origin: string, treeId: int)
    ensures var u := QrTarget(origin, treeId); var seg := u[|origin| + 6..];
      u[..|origin| + 6] == origin + "/tree/" && seg == Decimal(treeId) &&
      ParseInt(seg) == Some(treeId)
  {
    var u := QrTarget(origin, treeId);
    assert u[|origin| + 6..] == Decimal(treeId);
    ParseIntDecimal(treeId);
  }

  /** The link the download button creates. */
  datatype Download = Download(href: string, fileName: string)

  /** downloadQR: nothing while the image is not ready (empty address); otherwise a link to
      the image under the collapsed-name file name. */
  function DownloadQR(qrUrl: string, treeName: string, treeId: int): (r: Option<Download>)
    ensures r.None? <==> qrUrl == ""
    ensures r.Some? ==> r.value.href == qrUrl && NoSpace(r.value.fileName)
  {
    if qrUrl == "" then None else Some(Download(qrUrl, FileName(treeName, treeId)))
  }
}

=== FILE: TreeSchema.dfy ===
/**
 * The tree record and the document schema of models/Tree.ts: which fields are
 * required, which defaults fill absent optional fields, and how a supplied
 * (partial) record becomes a stored one.
 */
module TreeSchema {
  import opened Wrappers

  /** A whole tree record, as kept in either store. Timestamps are milliseconds. */
  datatype Tree = Tree(
    treeId: int,
    commonName: string,
    scientificName: string,
    description: string,
    benefits: seq<string>,
    images: seq<string>,
    age: int,
    plantedDate: string,
    healthStatus: string,
    plantedBy: string,
    qrCode: Option<string>,
    createdAt: Option<int>,
    updatedAt: Option<int>)

  /** A record as a client supplies it (a request body, a `Partial<Tree>` update):
      every field may be absent. */
  datatype Draft = Draft(
    treeId: Option<int>,
    commonName: Option<string>,
    scientificName: Option<string>,
    description: Option<string>,
    benefits: Option<seq<string>>,
    images: Option<seq<string>>,
    age: Option<int>,
    plantedDate: Option<string>,
    healthStatus: Option<string>,
    plantedBy: Option<string>,
    qrCode: Option<string>)

  const NoFields: Draft := Draft(None, None, None, None, None, None, None, None, None, None, None)

  const DefaultDescription: string := ""
  const DefaultBenefits: seq<string> := []
  const DefaultImages: seq<string> := []
  const DefaultAge: int := 0
  const DefaultHealthStatus: string := "Healthy"
  const DefaultPlantedBy: string := ""

  /** A required String path is satisfied by a present, non-empty string
      (a mongoose `required` validator rejects ""). */
  predicate RequiredString(f: Option<string>) {
    f.Some? && f.value != ""
  }

  /** The four required paths: tree_id, common_name, scientific_name, planted_date. */
  predicate HasRequired(d: Draft) {
    d.treeId.Some? && RequiredString(d.commonName) && RequiredString(d.scientificName) &&
    RequiredString(d.plantedDate)
  }

  /** Every field that has a default is present. */
  predicate Filled(d: Draft) {
    d.description.Some? && d.benefits.Some? && d.images.Some? && d.age.Some? &&
    d.healthStatus.Some? && d.plantedBy.Some?
  }

  /** `r` keeps every field that `d` supplies. */
  predicate Keeps(d: Draft, r: Draft) {
    (d.treeId.Some? ==> r.treeId == d.treeId) &&
    (d.commonName.Some? ==> r.commonName == d.commonName) &&
    (d.scientificName.Some? ==> r.scientificName == d.scientificName) &&
    (d.description.Some? ==> r.description == d.description) &&
    (d.benefits.Some? ==> r.benefits == d.benefits) &&
    (d.images.Some? ==> r.images == d.images) &&
    (d.age.Some? ==> r.age == d.age) &&
    (d.plantedDate.Some? ==> r.plantedDate == d.plantedDate) &&
    (d.healthStatus.Some? ==> r.healthStatus == d.healthStatus) &&
    (d.plantedBy.Some? ==> r.plantedBy == d.plantedBy) &&
    (d.qrCode.Some? ==> r.qrCode == d.qrCode)
  }

  /** The schema's defaults applied to the absent optional fields. Fields without a
      default (the required ones and qr_code) are left as they are. */
  function ApplyDefaults(d: Draft): (r: Draft)
    ensures Filled(r) && Keeps(d, r)
    ensures r.treeId == d.treeId && r.commonName == d.commonName
    ensures r.scientificName == d.scientificName && r.plantedDate == d.plantedDate
    ensures r.qrCode == d.qrCode
  {
    d.(description := Some(d.description.GetOr(DefaultDescription)),
       benefits := Some(d.benefits.GetOr(DefaultBenefits)),
       images := Some(d.images.GetOr(DefaultImages)),
       age := Some(d.age.GetOr(DefaultAge)),
       healthStatus := Some(d.healthStatus.GetOr(DefaultHealthStatus)),
       plantedBy := Some(d.plantedBy.GetOr(DefaultPlantedBy)))
  }

  /** Each absent optional field receives its default value. */
  lemma DefaultsFillAbsent(d: Draft)
    ensures d.description.None? ==> ApplyDefaults(d).description == Some("")
    ensures d.benefits.None? ==> ApplyDefaults(d).benefits == Some([])
    ensures d.images.None? ==> ApplyDefaults(d).images == Some([])
    ensures d.age.None? ==> ApplyDefaults(d).age == Some(0)
    ensures d.healthStatus.None? ==> ApplyDefaults(d).healthStatus == Some("Healthy")
    ensures d.plantedBy.None? ==> ApplyDefaults(d).plantedBy == Some("")
    ensures d.qrCode.None? ==> ApplyDefaults(d).qrCode.None?
  {
  }

  /** Defaults only fill what is absent, so applying them twice is applying them once. */
  lemma DefaultsIdempotent(d: Draft)
    ensures ApplyDefaults(ApplyDefaults(d)) == ApplyDefaults(d)
  {
  }

  /** The required paths that `d` fails, in schema order. */
  function MissingRequired(d: Draft): (r: seq<string>)
    ensures r == [] <==> HasRequired(d)
  {
    (if d.treeId.None? then ["tree_id"] else []) +
    (if !RequiredString(d.commonName) then ["common_name"] else []) +
    (if !RequiredString(d.scientificName) then ["scientific_name"] else []) +
    (if !RequiredString(d.plantedDate) then ["planted_date"] else [])
  }

  /** The document a supplied record becomes: defaults applied, then rejected with the
      list of failing required paths, or turned into a whole record (not yet stamped). */
  function Validate(d: Draft): (r: Result<Tree, seq<string>>)
    ensures r.Success? <==> HasRequired(d)
    ensures r.Failure? ==> r.error == MissingRequired(d) && r.error != []
    ensures r.Success? ==> ToDraft(r.value) == ApplyDefaults(d) && WellFormed(r.value)
    ensures r.Success? ==> r.value.createdAt.None? && r.value.updatedAt.None?
  {
    var e := ApplyDefaults(d);
    var missing := MissingRequired(e);
    if missing != [] then Failure(missing)
    else Success(Tree(e.treeId.value, e.commonName.value, e.scientificName.value,
                      e.description.value, e.benefits.value, e.images.value, e.age.value,
                      e.plantedDate.value, e.healthStatus.value, e.plantedBy.value, e.qrCode,
                      None, None))
  }

  /** A record whose required fields hold values the schema accepts. */
  predicate WellFormed(t: Tree) {
    t.commonName != "" && t.scientificName != "" && t.plantedDate != ""
  }

  /** A whole record written out as a body in which every field is supplied. */
  function ToDraft(t: Tree): (d: Draft)
    ensures Filled(d)
    ensures WellFormed(t) <==> HasRequired(d)
  {
    Draft(Some(t.treeId), Some(t.commonName), Some(t.scientificName), Some(t.description),
          Some(t.benefits), Some(t.images), Some(t.age), Some(t.plantedDate),
          Some(t.healthStatus), Some(t.plantedBy), t.qrCode)
  }

  /** A well-formed unstamped record survives being written out and validated again. */
  lemma ValidateToDraft(t: Tree)
    requires WellFormed(t) && t.createdAt.None? && t.updatedAt.None?
    ensures Validate(ToDraft(t)) == Success(t)
  {
  }

  /** `qr_code` has no default and is not required: a record without it is accepted. */
  lemma QrCodeOptional(d: Draft)
    requires HasRequired(d) && d.qrCode.None?
    ensures Validate(d).Success? && Validate(d).value.qrCode.None?
  {
  }

  /** `timestamps: true`: the creation stamp sets both createdAt and updatedAt. */
  function Stamp(t: Tree, now: int): (r: Tree)
    ensures r.createdAt == Some(now) && r.updatedAt == Some(now)
    ensures r.(createdAt := t.createdAt, updatedAt := t.updatedAt) == t
  {
    t.(createdAt := Some(now), updatedAt := Some(now))
  }

  /** Applies a partial update: every supplied field replaces the stored one, except
      `tree_id`, which is the record's key in both stores and is never rewritten. */
  function Merge(t: Tree, p: Draft): (r: Tree)
    ensures r.treeId == t.treeId
    ensures Keeps(p.(treeId := None), ToDraft(r))
    ensures p.commonName.None? ==> r.commonName == t.commonName
    ensures p.scientificName.None? ==> r.scientificName == t.scientificName
    ensures p.description.None? ==> r.description == t.description
    ensures p.benefits.None? ==> r.benefits == t.benefits
    ensures p.images.None? ==> r.images == t.images
    ensures p.age.None? ==> r.age == t.age
    ensures p.plantedDate.None? ==> r.plantedDate == t.plantedDate
    ensures p.healthStatus.None? ==> r.healthStatus == t.healthStatus
    ensures p.plantedBy.None? ==> r.plantedBy == t.plantedBy
    ensures p.qrCode.None? ==> r.qrCode == t.qrCode
    ensures r.createdAt == t.createdAt && r.updatedAt == t.updatedAt
    ensures p.(treeId := None) == NoFields ==> r == t
  {
    Tree(t.treeId,
         p.commonName.GetOr(t.commonName),
         p.scientificName.GetOr(t.scientificName),
         p.description.GetOr(t.description),
         p.benefits.GetOr(t.benefits),
         p.images.GetOr(t.images),
         p.age.GetOr(t.age),
         p.plantedDate.GetOr(t.plantedDate),
         p.healthStatus.GetOr(t.healthStatus),
         p.plantedBy.GetOr(t.plantedBy),
         if p.qrCode.Some? then p.qrCode else t.qrCode,
         t.createdAt, t.updatedAt)
  }

  /** Applying the same partial update twice leaves the record as applying it once
      (attaching the same QR code twice is harmless). */
  lemma MergeIdempotent(t: Tree, p: Draft)
    ensures Merge(Merge(t, p), p) == Merge(t, p)
  {
  }

  /** No field other than tree_id is supplied by both drafts. */
  predicate Disjoint(a: Draft, b: Draft) {
    !(a.commonName.Some? && b.commonName.Some?) &&
    !(a.scientificName.Some? && b.scientificName.Some?) &&
    !(a.description.Some? && b.description.Some?) &&
    !(a.benefits.Some? && b.benefits.Some?) &&
    !(a.images.Some? && b.images.Some?) &&
    !(a.age.Some? && b.age.Some?) &&
    !(a.plantedDate.Some? && b.plantedDate.Some?) &&
    !(a.healthStatus.Some? && b.healthStatus.Some?) &&
    !(a.plantedBy.Some? && b.plantedBy.Some?) &&
    !(a.qrCode.Some? && b.qrCode.Some?)
  }

  /** A field of a draft, dropped when the update supplies that field. */
  function Without<T, U>(field: Option<T>, supplied: Option<U>): (r: Option<T>)
    ensures supplied.Some? ==> r.None?
    ensures supplied.None? ==> r == field
  {
    if supplied.Some? then None else field
  }

  /** The fields of `d` that the update `p` does not supply: a part of `d` sharing no field
      with `p`, and all of `d` when `p` supplies nothing. */
  function Unsupplied(d: Draft, p: Draft): (r: Draft)
    ensures r.treeId == d.treeId && Keeps(r, d) && Disjoint(r, p)
    ensures p.(treeId := None) == NoFields ==> r == d
  {
    Draft(d.treeId,
          Without(d.commonName, p.commonName),
          Without(d.scientificName, p.scientificName),
          Without(d.description, p.description),
          Without(d.benefits, p.benefits),
          Without(d.images, p.images),
          Without(d.age, p.age),
          Without(d.plantedDate, p.plantedDate),
          Without(d.healthStatus, p.healthStatus),
          Without(d.plantedBy, p.plantedBy),
          Without(d.qrCode, p.qrCode))
  }

  /** Fields the update does not supply are untouched, and so are both timestamps: the
      updated record keeps every stored field the patch leaves out. */
  lemma MergeKeepsUnsupplied(t: Tree, p: Draft)
    ensures Keeps(Unsupplied(ToDraft(t), p), ToDraft(Merge(t, p)))
    ensures Merge(t, p).createdAt == t.createdAt && Merge(t, p).updatedAt == t.updatedAt
  {
  }

  /** An update changes the record exactly when some supplied field differs from the stored one. */
  lemma MergeUnchangedIff(t: Tree, p: Draft)
    ensures Merge(t, p) == t <==> Keeps(p.(treeId := None), ToDraft(t))
  {
    if Keeps(p.(treeId := None), ToDraft(t)) {
      assert ToDraft(Merge(t, p)) == ToDraft(t);
    }
  }

  /** An update keeps a well-formed record well formed unless it sets a required
      string path to the empty string (what the update validators reject). */
  predicate PatchValid(p: Draft) {
    (p.commonName.Some? ==> p.commonName.value != "") &&
    (p.scientificName.Some? ==> p.scientificName.value != "") &&
    (p.plantedDate.Some? ==> p.plantedDate.value != "")
  }

  lemma MergeWellFormed(t: Tree, p: Draft)
    requires WellFormed(t)
    ensures WellFormed(Merge(t, p)) <==> PatchValid(p)
  {
  }

  /** `unique: true` on tree_id: no two documents share an id. */
  predicate UniqueIds(docs: seq<Tree>) {
    forall i, j :: 0 <= i < |docs| && 0 <= j < |docs| && i != j ==> docs[i].treeId != docs[j].treeId
  }

  function Ids(docs: seq<Tree>): (r: set<int>)
    ensures forall t :: t in docs ==> t.treeId in r
    ensures forall id :: id in r ==> exists t :: t in docs && t.treeId == id
  {
    set t | t in docs :: t.treeId
  }
}

=== FILE: TreesRoute.dfy ===
/**
 * The server side of the registry: the collection route (GET lists every tree,
 * POST creates one) of app/api/trees/route.ts, and the single-tree route
 * (GET and PUT by id) that the sync coordinator calls remotely.
 */
module TreesRoute {
  import opened Wrappers
  import opened Text
  import opened TreeSchema

  // ------------------------------------------------------------ planting age

  /** A calendar date as `getFullYear()`, `getMonth()` (0-11) and `getDate()` give it. */
  datatype Date = Date(year: int, month: int, day: int)

  /** Lexicographic order on (year, month, day). */
  predicate OnOrBefore(a: Date, b: Date) {
    a.year < b.year || (a.year == b.year && (a.month < b.month || (a.month == b.month && a.day <= b.day)))
  }

  /** The `n`-th anniversary of the planting date falls on or before `today`. */
  predicate AnniversaryReached(planted: Date, today: Date, n: int) {
    OnOrBefore(Date(planted.year + n, planted.month, planted.day), today)
  }

  /** The year difference, less one when today's (month, day) comes before the planting (month, day). */
  function ElapsedYears(planted: Date, today: Date): (r: int)
    ensures today.year - planted.year - 1 <= r <= today.year - planted.year
    ensures r == today.year - planted.year <==>
      OnOrBefore(Date(today.year, planted.month, planted.day), today)
  {
    var years := today.year - planted.year;
    var monthDiff := today.month - planted.month;
    if monthDiff < 0 || (monthDiff == 0 && today.day < planted.day) then years - 1 else years
  }

  /** The elapsed years are exactly the number of anniversaries reached: the
      `ElapsedYears`-th has been reached and the next one has not. */
  lemma ElapsedYearsCountsAnniversaries(planted: Date, today: Date)
    ensures AnniversaryReached(planted, today, ElapsedYears(planted, today))
    ensures !AnniversaryReached(planted, today, ElapsedYears(planted, today) + 1)
  {
  }

  /** Anniversaries are reached in order. */
  lemma {:induction false} AnniversariesInOrder(planted: Date, today: Date, m: int, n: int)
    requires m <= n && AnniversaryReached(planted, today, n)
    ensures AnniversaryReached(planted, today, m)
  {
  }

  /** The age POST stores: 0 without a (non-empty) planting date, otherwise the completed
      years since `planted` (the parsed planting date), clamped at 0. */
  function CalculatedAge(plantedDate: Option<string>, planted: Date, today: Date): (r: nat)
    ensures plantedDate.None? || plantedDate == Some("") ==> r == 0
    ensures plantedDate.Some? && plantedDate.value != "" && r > 0 ==>
      AnniversaryReached(planted, today, r) && !AnniversaryReached(planted, today, r + 1)
    ensures plantedDate.Some? && plantedDate.value != "" && r == 0 ==>
      !AnniversaryReached(planted, today, 1)
  {
    ElapsedYearsCountsAnniversaries(planted, today);
    if plantedDate.Some? && plantedDate.value != "" then
      var years := ElapsedYears(planted, today);
      if years < 0 then 0 else years
    else 0
  }

  /** Planted two years and a day before today gives age 2; two years less a day gives 1. */
  lemma CalculatedAgeExamples()
    ensures CalculatedAge(Some("2022-03-14"), Date(2022, 2, 14), Date(2024, 2, 15)) == 2
    ensures CalculatedAge(Some("2022-03-16"), Date(2022, 2, 16), Date(2024, 2, 15)) == 1
    ensures CalculatedAge(Some("2030-01-01"), Date(2030, 0, 1), Date(2024, 2, 15)) == 0
  {
  }

  // ------------------------------------------------------------ regex escaping

  /** The characters `escapeRegExp` escapes: . * + ? ^ $ { } ( ) | [ ] \ */
  predicate IsRegExpSpecial(c: char) {
    c == '.' || c == '*' || c == '+' || c == '?' || c == '^' || c == '$' || c == '{' ||
    c == '}' || c == '(' || c == ')' || c == '|' || c == '[' || c == ']' || c == '\\'
  }

  /** `s.replace(/[.*+?^${}()|[\]\\]/g, '\\$&')`. */
  function EscapeRegExp(s: string): (r: string)
    ensures |r| >= |s|
  {
    if s == [] then []
    else (if IsRegExpSpecial(s[0]) then ['\\', s[0]] else [s[0]]) + EscapeRegExp(s[1..])
  }

  /** The string a pattern matches when the pattern is a plain literal (every special
      character escaped by a backslash); `None` when it contains an unescaped special
      character or a backslash that does not escape one. */
  function PatternLiteral(p: string): Option<string> {
    if p == [] then Some([])
    else if p[0] == '\\' then
      if |p| >= 2 && IsRegExpSpecial(p[1]) then
        match PatternLiteral(p[2..])
        case Some(rest) => Some([p[1]] + rest)
        case None => None
      else None
    else if IsRegExpSpecial(p[0]) then None
    else
      match PatternLiteral(p[1..])
      case Some(rest) => Some([p[0]] + rest)
      case None => None
  }

  /** Escaping makes every name a literal pattern that matches exactly that name; removing
      the inserted backslashes gives the name back. */
  lemma {:induction false} EscapeRegExpIsLiteral(s: string)
    ensures PatternLiteral(EscapeRegExp(s)) == Some(s)
  {
    if s != [] {
      EscapeRegExpIsLiteral(s[1..]);
      var e := EscapeRegExp(s);
      if IsRegExpSpecial(s[0]) {
        assert e[0] == '\\' && e[1] == s[0];
        assert e[2..] == EscapeRegExp(s[1..]);
        assert PatternLiteral(e) == Some([s[0]] + s[1..]);
        assert [s[0]] + s[1..] == s;
      } else {
        assert e[0] == s[0] && e[0] != '\\';
        assert e[1..] == EscapeRegExp(s[1..]);
        assert PatternLiteral(e) == Some([s[0]] + s[1..]);
        assert [s[0]] + s[1..] == s;
      }
    }
  }

  /** Escaping works character by character. */
  lemma {:induction false} EscapeRegExpConcat(a: string, b: string)
    ensures EscapeRegExp(a + b) == EscapeRegExp(a) + EscapeRegExp(b)
  {
    if a != [] {
      assert (a + b)[1..] == a[1..] + b;
      EscapeRegExpConcat(a[1..], b);
    } else {
      assert a + b == b;
    }
  }

  /** A name without special characters is left as it is. */
  lemma {:induction false} EscapeRegExpOrdinary(s: string)
    requires forall k :: 0 <= k < |s| ==> !IsRegExpSpecial(s[k])
    ensures EscapeRegExp(s) == s
  {
    if s != [] {
      EscapeRegExpOrdinary(s[1..]);
    }
  }

  /** An unescaped special character is not a literal: `a.b` is not the pattern of "a.b". */
  lemma UnescapedIsNotLiteral()
    ensures PatternLiteral("a.b") == None
    ensures PatternLiteral(EscapeRegExp("a.b")) == Some("a.b")
  {
    EscapeRegExpIsLiteral("a.b");
  }

  // ------------------------------------------------------------ duplicates

  /** `new RegExp('^' + pattern + '$', 'i').test(name)` for a literal pattern. */
  predicate WholeMatchIgnoreCase(pattern: string, name: string) {
    var lit := PatternLiteral(pattern);
    lit.Some? && EqualsIgnoreCase(name, lit.value)
  }

  /** The duplicate query of POST for one stored tree: its common name or its scientific
      name matches the escaped, trimmed input as a whole, ignoring case. */
  predicate QueryMatches(t: Tree, commonName: string, scientificName: string) {
    WholeMatchIgnoreCase(EscapeRegExp(Trim(commonName)), t.commonName) ||
    WholeMatchIgnoreCase(EscapeRegExp(Trim(scientificName)), t.scientificName)
  }

  /** The duplicate rule in plain terms. */
  predicate IsDuplicateOf(t: Tree, commonName: string, scientificName: string) {
    EqualsIgnoreCase(t.commonName, Trim(commonName)) ||
    EqualsIgnoreCase(t.scientificName, Trim(scientificName))
  }

  /** An escaped input matched as a whole, ignoring case, is case-insensitive equality with it. */
  lemma WholeMatchEscaped(input: string, name: string)
    ensures WholeMatchIgnoreCase(EscapeRegExp(input), name) <==> EqualsIgnoreCase(name, input)
  {
    EscapeRegExpIsLiteral(input);
  }

  /** The regular-expression query is exactly case-insensitive equality with the trimmed input. */
  lemma QueryMatchesIsDuplicate(t: Tree, commonName: string, scientificName: string)
    ensures QueryMatches(t, commonName, scientificName) <==> IsDuplicateOf(t, commonName, scientificName)
  {
    WholeMatchEscaped(Trim(commonName), t.commonName);
    WholeMatchEscaped(Trim(scientificName), t.scientificName);
  }

  /** `findOne({$or: [...]})`: the first stored tree the query matches. */
  function FindDuplicate(docs: seq<Tree>, commonName: string, scientificName: string): (r: Option<Tree>)
    ensures r.Some? ==> r.value in docs && IsDuplicateOf(r.value, commonName, scientificName)
    ensures r.None? ==> forall t :: t in docs ==> !IsDuplicateOf(t, commonName, scientificName)
  {
    if docs == [] then None
    else
      QueryMatchesIsDuplicate(docs[0], commonName, scientificName);
      if QueryMatches(docs[0], commonName, scientificName) then Some(docs[0])
      else FindDuplicate(docs[1..], commonName, scientificName)
  }

  // ------------------------------------------------------------ id allocation

  /** The largest tree_id stored (what `findOne().sort({tree_id: -1})` returns the id of). */
  function MaxId(docs: seq<Tree>): (r: int)
    requires docs != []
    ensures exists k :: 0 <= k < |docs| && docs[k].treeId == r
    ensures forall k :: 0 <= k < |docs| ==> docs[k].treeId <= r
  {
    if |docs| == 1 then docs[0].treeId
    else
      var m := MaxId(docs[1..]);
      assert forall k :: 1 <= k < |docs| ==> docs[k].treeId == docs[1..][k - 1].treeId;
      if docs[0].treeId >= m then docs[0].treeId else m
  }

  /** The id POST assigns: one more than the largest stored id, or 1 for an empty collection. */
  function NextTreeId(docs: seq<Tree>): (r: int)
    ensures docs == [] ==> r == 1
    ensures docs != [] ==> exists k :: 0 <= k < |docs| && docs[k].treeId + 1 == r
    ensures forall k :: 0 <= k < |docs| ==> docs[k].treeId < r
  {
    if docs == [] then 1 else MaxId(docs) + 1
  }

  /** The new id collides with no stored id, and ids freed by gaps are not reused:
      stored ids {1, 3, 7} give 8. */
  lemma NextTreeIdFresh(docs: seq<Tree>)
    ensures NextTreeId(docs) !in Ids(docs)
    ensures forall id :: id in Ids(docs) ==> id < NextTreeId(docs)
  {
  }

  lemma NextTreeIdSkipsGaps(a: Tree, b: Tree, c: Tree)
    requires a.treeId == 1 && b.treeId == 3 && c.treeId == 7
    ensures NextTreeId([a, b, c]) == 8
  {
    var docs := [a, b, c];
    var k :| 0 <= k < |docs| && docs[k].treeId + 1 == NextTreeId(docs);
    assert docs[2].treeId < NextTreeId(docs);
  }

  // ------------------------------------------------------------ listing

  predicate SortedByIdDesc(s: seq<Tree>) {
    forall i, j :: 0 <= i < j < |s| ==> s[i].treeId >= s[j].treeId
  }

  function InsertByIdDesc(t: Tree, s: seq<Tree>): (r: seq<Tree>)
    requires SortedByIdDesc(s)
    ensures SortedByIdDesc(r)
    ensures multiset(r) == multiset(s) + multiset{t}
    ensures |r| == |s| + 1
    ensures s == [] ==> r == [t]
    ensures s != [] ==> r[0] == t || r[0] == s[0]
  {
    if s == [] then [t]
    else if t.treeId >= s[0].treeId then
      SortedCons(t, s);
      assert multiset([t] + s) == multiset{t} + multiset(s);
      [t] + s
    else
      SortedTail(s);
      var rest := InsertByIdDesc(t, s[1..]);
      InsertBelowHead(t, s, rest);
      [s[0]] + rest
  }

  /** Putting the head back in front of the tail with `t` inserted keeps the list
      descending and adds exactly `t`. */
  lemma InsertBelowHead(t: Tree, s: seq<Tree>, rest: seq<Tree>)
    requires s != [] && SortedByIdDesc(s) && t.treeId < s[0].treeId
    requires SortedByIdDesc(rest) && multiset(rest) == multiset(s[1..]) + multiset{t}
    requires rest != [] && (rest[0] == t || (|s| > 1 && rest[0] == s[1]))
    ensures SortedByIdDesc([s[0]] + rest)
    ensures multiset([s[0]] + rest) == multiset(s) + multiset{t}
  {
    assert s == [s[0]] + s[1..];
    assert multiset(s) == multiset{s[0]} + multiset(s[1..]);
    assert multiset([s[0]] + rest) == multiset{s[0]} + multiset(rest);
    SortedCons(s[0], rest);
  }

  /** Dropping the head keeps a descending list descending. */
  lemma SortedTail(s: seq<Tree>)
    requires s != [] && SortedByIdDesc(s)
    ensures SortedByIdDesc(s[1..])
  {
    forall i, j | 0 <= i < j < |s| - 1 ensures s[1..][i].treeId >= s[1..][j].treeId {
      assert s[1..][i] == s[i + 1] && s[1..][j] == s[j + 1];
    }
  }

  /** A tree whose id is at least the head's keeps a descending list descending. */
  lemma SortedCons(x: Tree, rest: seq<Tree>)
    requires SortedByIdDesc(rest) && (rest == [] || x.treeId >= rest[0].treeId)
    ensures SortedByIdDesc([x] + rest)
  {
    var r := [x] + rest;
    forall i, j | 0 <= i < j < |r| ensures r[i].treeId >= r[j].treeId {
      if i == 0 {
        assert r[j] == rest[j - 1];
      } else {
        assert r[i] == rest[i - 1] && r[j] == rest[j - 1];
      }
    }
  }

  /** `find({}).sort({tree_id: -1})`: every stored tree, highest id first. */
  function SortByIdDesc(s: seq<Tree>): (r: seq<Tree>)
    ensures SortedByIdDesc(r)
    ensures multiset(r) == multiset(s)
  {
    if s == [] then []
    else
      assert s == [s[0]] + s[1..];
      InsertByIdDesc(s[0], SortByIdDesc(s[1..]))
  }

  // ------------------------------------------------------------ responses

  datatype PostError =
    | Unreachable                    // connectDB() failed
    | MissingName                    // `.trim()` of an absent name throws
    | Invalid(paths: seq<string>)    // the schema rejected the document

  datatype PostResponse = Created(tree: Tree) | Conflict | BadRequest(why: PostError)

  datatype ListResponse = Listed(trees: seq<Tree>) | ListFailed

  datatype GetResponse = Found(tree: Tree) | NotFound | GetFailed

  datatype PutResponse = Updated(tree: Tree) | PutNotFound | PutFailed

  function PostStatus(r: PostResponse): int {
    match r
    case Created(_) => 201
    case Conflict => 409
    case BadRequest(_) => 400
  }

  function ListStatus(r: ListResponse): int {
    if r.Listed? then 200 else 500
  }

  function GetStatus(r: GetResponse): int {
    match r
    case Found(_) => 200
    case NotFound => 404
    case GetFailed => 500
  }

  function PutStatus(r: PutResponse): int {
    match r
    case Updated(_) => 200
    case PutNotFound => 404
    case PutFailed => 400
  }

  /** The `success` field of the JSON body: true exactly for the 2xx responses. */
  lemma StatusesAgreeWithSuccess(p: PostResponse, l: ListResponse, g: GetResponse, u: PutResponse)
    ensures p.Created? <==> 200 <= PostStatus(p) < 300
    ensures l.Listed? <==> 200 <= ListStatus(l) < 300
    ensures g.Found? <==> 200 <= GetStatus(g) < 300
    ensures u.Updated? <==> 200 <= PutStatus(u) < 300
  {
  }

  // ------------------------------------------------------------ POST as a function

  /** The body POST hands to `TreeModel.create`: the request body with the server's id and age. */
  function ServerRecord(docs: seq<Tree>, body: Draft, planted: Date, today: Date): Draft {
    body.(treeId := Some(NextTreeId(docs)), age := Some(CalculatedAge(body.plantedDate, planted, today)))
  }

  /** What POST answers for `body` against the stored `docs`. `reachable` says whether the
      database connection succeeds, `planted` is the parsed planting date, `today` the
      server's date and `now` its clock in milliseconds. */
  function CreateResult(docs: seq<Tree>, body: Draft, reachable: bool, planted: Date, today: Date,
                        now: int): (r: PostResponse)
    ensures !reachable ==> r == BadRequest(Unreachable)
    ensures r.Conflict? ==>
      reachable && body.commonName.Some? && body.scientificName.Some? &&
      exists t :: t in docs && IsDuplicateOf(t, body.commonName.value, body.scientificName.value)
    ensures r.Created? ==>
      reachable && r.tree.treeId == NextTreeId(docs) &&
      r.tree.createdAt == Some(now) && r.tree.updatedAt == Some(now)
  {
    if !reachable then BadRequest(Unreachable)
    else if body.commonName.None? || body.scientificName.None? then BadRequest(MissingName)
    else if FindDuplicate(docs, body.commonName.value, body.scientificName.value).Some? then Conflict
    else
      match Validate(ServerRecord(docs, body, planted, today))
      case Failure(paths) => BadRequest(Invalid(paths))
      case Success(t) => Created(Stamp(t, now))
  }

  /** A request is refused with 409 exactly when a stored tree has the trimmed common name
      or the trimmed scientific name, ignoring case. */
  lemma CreateConflictIff(docs: seq<Tree>, body: Draft, planted: Date, today: Date, now: int)
    requires body.commonName.Some? && body.scientificName.Some?
    ensures CreateResult(docs, body, true, planted, today, now).Conflict? <==>
      exists t :: t in docs && IsDuplicateOf(t, body.commonName.value, body.scientificName.value)
  {
    var found := FindDuplicate(docs, body.commonName.value, body.scientificName.value);
    if found.Some? {
      assert CreateResult(docs, body, true, planted, today, now) == Conflict;
    } else {
      assert CreateResult(docs, body, true, planted, today, now) != Conflict by {
        match Validate(ServerRecord(docs, body, planted, today))
        case Failure(_) =>
        case Success(_) =>
      }
    }
  }

  /** A created tree is the body with the server's tree_id and age, every other supplied
      field kept and both timestamps set; its id is fresh. */
  lemma CreatedRecord(docs: seq<Tree>, body: Draft, reachable: bool, planted: Date, today: Date, now: int)
    requires CreateResult(docs, body, reachable, planted, today, now).Created?
    ensures var t := CreateResult(docs, body, reachable, planted, today, now).tree;
      && t.treeId == NextTreeId(docs) && t.treeId !in Ids(docs)
      && t.age == CalculatedAge(body.plantedDate, planted, today)
      && Keeps(body.(treeId := None, age := None), ToDraft(t))
      && t.createdAt == Some(now) && t.updatedAt == Some(now)
      && WellFormed(t)
  {
    var r := ServerRecord(docs, body, planted, today);
    var t := Validate(r).value;
    assert ToDraft(t) == ApplyDefaults(r);
    NextTreeIdFresh(docs);
  }

  /** Without a reachable database or with a name missing, nothing is created (400). */
  lemma CreateBadRequest(docs: seq<Tree>, body: Draft, reachable: bool, planted: Date, today: Date, now: int)
    requires !reachable || body.commonName.None? || body.scientificName.None?
    ensures PostStatus(CreateResult(docs, body, reachable, planted, today, now)) == 400
  {
  }

  /** With a reachable database, names given and no duplicate, the tree is created exactly
      when the names and the planting date are non-empty. */
  lemma CreateSucceedsIff(docs: seq<Tree>, body: Draft, planted: Date, today: Date, now: int)
    requires body.commonName.Some? && body.scientificName.Some?
    requires forall t :: t in docs ==> !IsDuplicateOf(t, body.commonName.value, body.scientificName.value)
    ensures CreateResult(docs, body, true, planted, today, now).Created? <==>
      body.commonName.value != "" && body.scientificName.value != "" && RequiredString(body.plantedDate)
  {
  }

  /** Adding a record whose id is not yet used keeps the ids unique. */
  lemma AppendFreshId(docs: seq<Tree>, t: Tree)
    requires UniqueIds(docs) && t.treeId !in Ids(docs)
    ensures UniqueIds(docs + [t])
  {
    var r := docs + [t];
    forall i, j | 0 <= i < |r| && 0 <= j < |r| && i != j
      ensures r[i].treeId != r[j].treeId
    {
      if i == |docs| {
        assert r[j] in docs;
      } else if j == |docs| {
        assert r[i] in docs;
      }
    }
  }

  // ------------------------------------------------------------ single-tree lookups

  /** `findOne({tree_id: id})`. */
  function FindById(docs: seq<Tree>, id: int): (r: Option<Tree>)
    ensures r.Some? ==> r.value in docs && r.value.treeId == id
    ensures r.None? <==> id !in Ids(docs)
  {
    if docs == [] then None
    else if docs[0].treeId == id then Some(docs[0])
    else
      var r := FindById(docs[1..], id);
      assert forall t :: t in docs ==> t == docs[0] || t in docs[1..];
      r
  }

  /** Every stored record is well formed and carries both timestamps. */
  predicate Stored(t: Tree) {
    WellFormed(t) && t.createdAt.Some? && t.updatedAt.Some?
  }

  /** `findOneAndUpdate({tree_id: id}, patch)` with the update's timestamp. */
  function UpdateDocs(docs: seq<Tree>, id: int, patch: Draft, now: int): (r: seq<Tree>)
    ensures |r| == |docs|
    ensures forall k :: 0 <= k < |docs| ==> r[k].treeId == docs[k].treeId
    // every other document is left as it was
    ensures forall k :: 0 <= k < |docs| && docs[k].treeId != id ==> r[k] == docs[k]
    // the matching document takes the supplied fields, keeps the rest and its creation
    // stamp, and is stamped as updated now
    ensures forall k :: 0 <= k < |docs| && docs[k].treeId == id ==>
      Keeps(patch.(treeId := None), ToDraft(r[k])) &&
      Keeps(Unsupplied(ToDraft(docs[k]), patch), ToDraft(r[k])) &&
      (patch.qrCode.None? ==> r[k].qrCode == docs[k].qrCode) &&
      r[k].createdAt == docs[k].createdAt && r[k].updatedAt == Some(now)
  {
    seq(|docs|, k requires 0 <= k < |docs| =>
      if docs[k].treeId == id then Merge(docs[k], patch).(updatedAt := Some(now)) else docs[k])
  }

  /** A valid update keeps the collection's documents stored: ids unique and unchanged,
      required fields filled, both timestamps present. */
  lemma UpdateDocsKeepsStored(docs: seq<Tree>, id: int, patch: Draft, now: int)
    requires UniqueIds(docs) && forall k :: 0 <= k < |docs| ==> Stored(docs[k])
    requires PatchValid(patch)
    ensures var r := UpdateDocs(docs, id, patch, now);
      UniqueIds(r) && (forall k :: 0 <= k < |r| ==> Stored(r[k])) && Ids(r) == Ids(docs)
  {
    var r := UpdateDocs(docs, id, patch, now);
    forall k | 0 <= k < |r| ensures Stored(r[k]) {
      if docs[k].treeId == id {
        MergeWellFormed(docs[k], patch);
      }
    }
    assert Ids(r) == Ids(docs) by {
      forall i | i in Ids(docs) ensures i in Ids(r) {
        var t :| t in docs && t.treeId == i;
        var k :| 0 <= k < |docs| && docs[k] == t;
        assert r[k].treeId == i;
      }
    }
  }

  /** The PUT answer for the id path segment `segment`. */
  function PutResult(docs: seq<Tree>, segment: string, patch: Draft, reachable: bool, now: int): (r: PutResponse)
    // the update validators run before the lookup: an invalid patch is a 400 whether or not the id exists
    ensures !PatchValid(patch) ==> r == PutFailed
    ensures r.PutNotFound? <==>
      reachable && PatchValid(patch) && ParseInt(segment).Some? && ParseInt(segment).value !in Ids(docs)
    ensures r.Updated? <==>
      reachable && PatchValid(patch) && ParseInt(segment).Some? && ParseInt(segment).value in Ids(docs)
    ensures r.Updated? ==>
      reachable && PatchValid(patch) && ParseInt(segment) == Some(r.tree.treeId) &&
      exists t :: t in docs && t.treeId == r.tree.treeId &&
        r.tree.createdAt == t.createdAt && r.tree.updatedAt == Some(now) &&
        Keeps(patch.(treeId := None), ToDraft(r.tree)) && Keeps(Unsupplied(ToDraft(t), patch), ToDraft(r.tree)) &&
        (patch.qrCode.None? ==> r.tree.qrCode == t.qrCode)
  {
    if !reachable then PutFailed
    else match ParseInt(segment)
      case None => PutFailed
      case Some(id) =>
        if !PatchValid(patch) then PutFailed
        else match FindById(docs, id)
          case None => PutNotFound
          case Some(t) =>
            var u := Merge(t, patch).(updatedAt := Some(now));
            MergeKeepsUnsupplied(t, patch);
            assert ToDraft(u) == ToDraft(Merge(t, patch));
            Updated(u)
  }

  /** The GET answer for the id path segment `segment`. */
  function GetResult(docs: seq<Tree>, segment: string, reachable: bool): (r: GetResponse)
    ensures r.Found? ==> r.tree in docs && ParseInt(segment) == Some(r.tree.treeId)
    ensures r.NotFound? <==> reachable && ParseInt(segment).Some? && ParseInt(segment).value !in Ids(docs)
    ensures r.GetFailed? <==> !reachable || ParseInt(segment).None?
  {
    if !reachable then GetFailed
    else match ParseInt(segment)
      case None => GetFailed
      case Some(id) =>
        match FindById(docs, id)
        case None => NotFound
        case Some(t) => Found(t)
  }

  /** The tree collection: the documents of the `Tree` model in natural order. */
  class TreeCollection {
    var docs: seq<Tree>

    ghost predicate Valid()
      reads this
    {
      UniqueIds(docs) && forall k :: 0 <= k < |docs| ==> Stored(docs[k])
    }

    constructor ()
      ensures Valid() && docs == []
    {
      docs := [];
    }

    /** POST /api/trees. */
    method Post(body: Draft, reachable: bool, planted: Date, today: Date, now: int) returns (resp: PostResponse)
      requires Valid()
      modifies this
      ensures Valid()
      ensures resp == CreateResult(old(docs), body, reachable, planted, today, now)
      ensures docs == if resp.Created? then old(docs) + [resp.tree] else old(docs)
    {
      if !reachable {
        return BadRequest(Unreachable);
      }
      var calculatedAge := CalculatedAge(body.plantedDate, planted, today);
      if body.commonName.None? || body.scientificName.None? {
        return BadRequest(MissingName);
      }
      var existing := FindDuplicate(docs, body.commonName.value, body.scientificName.value);
      if existing.Some? {
        return Conflict;
      }
      var newTreeId := NextTreeId(docs);
      var record := body.(treeId := Some(newTreeId), age := Some(calculatedAge));
      match Validate(record) {
        case Failure(paths) =>
          resp := BadRequest(Invalid(paths));
        case Success(t) =>
          var tree := Stamp(t, now);
          NextTreeIdFresh(docs);
          AppendFreshId(docs, tree);
          docs := docs + [tree];
          resp := Created(tree);
      }
    }

    /** GET /api/trees. */
    method List(reachable: bool) returns (resp: ListResponse)
      requires Valid()
      ensures reachable ==> resp == Listed(SortByIdDesc(docs))
      ensures !reachable ==> resp == ListFailed
    {
      if !reachable {
        return ListFailed;
      }
      resp := Listed(SortByIdDesc(docs));
    }

    /** GET /api/trees/[id]. */
    method Get(segment: string, reachable: bool) returns (resp: GetResponse)
      requires Valid()
      ensures resp == GetResult(docs, segment, reachable)
    {
      resp := GetResult(docs, segment, reachable);
    }

    /** PUT /api/trees/[id]. */
    method Put(segment: string, patch: Draft, reachable: bool, now: int) returns (resp: PutResponse)
      requires Valid()
      modifies this
      ensures Valid()
      ensures resp == PutResult(old(docs), segment, patch, reachable, now)
      ensures docs == if resp.Updated? then UpdateDocs(old(docs), resp.tree.treeId, patch, now) else old(docs)
    {
      resp := PutResult(docs, segment, patch, reachable, now);
      if resp.Updated? {
        var id := resp.tree.treeId;
        UpdateDocsKeepsStored(docs, id, patch, now);
        docs := UpdateDocs(docs, id, patch, now);
      }
    }
  }
}

=== FILE: Wrappers.dfy ===
/** Option and Result, used for JavaScript's null/undefined and for error returns. */
module Wrappers {

  datatype Option<+T> = None | Some(value: T) {
    function GetOr(default: T): T {
      match this
      case Some(v) => v
      case None => default
    }
  }

  datatype Result<+R, +E> = Success(value: R) | Failure(error: E)
}
